=== FILE: README.md ===
# Chat server and client helpers — a Dafny model

This project models the core of a small realtime chat application: the
server's chat directory (`accessChat`, `getChats`, `createGroupChat`,
`renameGroup`, `setAdmin`, `removeAdmin`, `addToGroup`, `removeFromGroup`),
its message service (`sendMessage`, `sendAttachmentMessage`, `getMessages`),
the Socket.IO handlers that relay messages and typing signals, and the pure
helpers of the browser client: name display (`capitalize`,
`capitalizeFirstLast`), the rename confirmation, which admin controls the
group page offers, the local patches the page applies after a successful
request, the chat list's search filter and active card, the chat page's
bubble styling and back button, and the sidebar's active link.

The database is an immutable `Store` of chats and messages. Ids are
positions in the store's natural order, so `findOne` is "the first match"
and `find` is "in store order". Every handler is a total function from a
store and a request to `Done(store, value)` or `Failed(error)`. A failed
handler writes nothing. The clock (`now`), the result of moving an uploaded
file (`moved`) and the parse result of the `users` field are parameters.

Modules:

- `Strings`: ECMAScript `trim`, `split`, `join`, `includes`, `startsWith`, `indexOf`/`lastIndexOf` and ASCII case mapping.
- `Seqs`: MongoDB's `$pull`, which is also the client's `filter`.
- `Records`: the chat and message schemas and the store.
- `ChatDirectory` and `MessageService`: the server handlers.
- `Gateway`: the socket handlers.
- `ChatHeader`, `ChatsPage`, `ChatPage` and `Sidebar`: the client helpers.

What the code does not do, and the model therefore does not do either:

- No chat handler checks that the requester is an admin or a member.
- `removeFromGroup` neither protects the main admin nor demotes the removed user.
- `sendMessage` does not check that the sender belongs to the chat.
- Typing signals are relayed as they arrive, with no debounce.
- The server routes no group-picture handler, although the chat header's `changeGroupPic` (client/src/pages/ChatHeader.jsx:164) calls one.

## Model

| member | source | states |
|---|---|---|
| Records.NewChat | server/models/chatModel.js:3-21 | A created chat has a trimmed name, is a group only when told so, has no admins and no latest message, and is stamped with the creation time |
| Records.NewMessage | server/models/messageModel.js:3-12 | A stored text message is trimmed by the schema; an attachment record is stored as given; sender, chat and both timestamps are kept |
| Seqs.RemoveAll | server/controllers/chatControllers.js:187-191 | `$pull` removes every occurrence of the value and keeps every other value with its multiplicity |
| Seqs.RemoveAllAppend | server/controllers/chatControllers.js:187-191 | Pulling works element by element, so the survivors keep their relative order |
| Seqs.PushThenRemove | server/controllers/chatControllers.js:150-191 | Pushing a value that was absent and then pulling it restores the list |
| ChatDirectory.FindDirect | server/controllers/chatControllers.js:18-21 | The lookup returns the first direct chat holding both users, and returns nothing only when no direct chat holds both |
| ChatDirectory.NewDirect | server/controllers/chatControllers.js:36-42 | The chat created for a pair is named "sender", is direct, lists exactly the two users, and has no admins |
| ChatDirectory.AccessChat | server/controllers/chatControllers.js:9-51 | A missing or empty user id is the only failure (400); malformed ids are outside the model (see Left out). Otherwise the store is unchanged exactly when a direct chat of the pair exists; if none exists, one fresh chat is appended and nothing else changes |
| ChatDirectory.AddDirect | server/controllers/chatControllers.js:36-44 | Creating the direct chat appends it after the existing chats and leaves messages and earlier chats alone |
| ChatDirectory.AccessChatIsIdempotent | server/controllers/chatControllers.js:18-33 | Opening the same direct chat again, from either side, returns the same chat and writes nothing |
| ChatDirectory.FirstDirectIsUnique | server/controllers/chatControllers.js:18-21 | The first chat matching a pair is the one the lookup returns |
| ChatDirectory.AccessChatKeepsPairsUnique | server/controllers/chatControllers.js:17-46 | If no two direct chats share a pair of distinct users, `accessChat` keeps it so |
| ChatDirectory.MemberChats | server/controllers/chatControllers.js:58 | The query selects each chat whose users include the requester, once |
| ChatDirectory.InsertByUpdate | server/controllers/chatControllers.js:63 | Inserting into a newest-first list keeps it newest-first and adds exactly that id |
| ChatDirectory.SortByUpdate | server/controllers/chatControllers.js:63 | Sorting by `updatedAt` descending is a permutation that is newest-first |
| ChatDirectory.GetChats | server/controllers/chatControllers.js:56-75 | The listing holds every chat the requester belongs to exactly once and no other chat, most recently updated first |
| ChatDirectory.CreateGroupChat | server/controllers/chatControllers.js:80-104 | Fails exactly when a field is missing ("Fill in all fields", 400), the list does not parse (the caught exception, 500), or the list is empty ("At least 2 users are required to form a group chat", 400). Otherwise one group is appended whose users are the given list followed by the requester, who is its main admin, with the trimmed name and no admins |
| ChatDirectory.CreateGroupStatusFinding | server/controllers/chatControllers.js:82 | The handler as written sends the missing-field error without a status; the corrected handler sends 400; the two agree everywhere else |
| ChatDirectory.Save | server/controllers/chatControllers.js:150-154 | `findByIdAndUpdate` with `new: true` returns the stored chat and changes no other chat or message |
| ChatDirectory.RenameGroup | server/controllers/chatControllers.js:110-132 | Fails exactly for an unknown chat (404). Otherwise only the chat's name, trimmed, and its update time change |
| ChatDirectory.SetAdmin | server/controllers/chatControllers.js:137-163 | For well-formed ids, fails exactly for an unknown chat (404) or an existing admin (400). Otherwise the user is appended to the admin list and nothing else changes but the update time |
| ChatDirectory.RemoveAdmin | server/controllers/chatControllers.js:168-200 | Succeeds exactly when the chat exists, has a main admin other than the user, and lists the user as admin. It refuses the main admin (400) and non-admins (400); a chat without a main admin gives 500. On success every occurrence of the user leaves the admin list and the other admins are kept |
| ChatDirectory.AddToGroup | server/controllers/chatControllers.js:205-229 | For well-formed ids, fails exactly for an unknown chat (404) or an existing member (400). Otherwise the user is appended to the members and nothing else changes but the update time |
| ChatDirectory.RemoveFromGroup | server/controllers/chatControllers.js:234-258 | Fails exactly for an unknown chat (404) or a non-member (400), a malformed id included, since the membership test compares strings. Otherwise the user leaves the members, the other members are kept, and admins and main admin are untouched |
| ChatDirectory.SetAdminTwiceConflicts | server/controllers/chatControllers.js:145-152 | A second promotion of the same user is refused with 400 |
| ChatDirectory.SetThenRemoveAdmin | server/controllers/chatControllers.js:150-191 | Promoting a user who is not the main admin and demoting them again restores the admin list |
| ChatDirectory.AddThenRemoveMember | server/controllers/chatControllers.js:212-249 | Adding a non-member and removing them again restores the member list |
| ChatDirectory.RemoveFromGroupCanExpelMainAdmin | server/controllers/chatControllers.js:234-258 | Nothing stops the main admin from being removed from the members, after which `mainAdmin` names a non-member |
| ChatDirectory.GroupScenario | server/controllers/chatControllers.js:80-258 | In a new group, promotion succeeds once and then conflicts, the main admin cannot be demoted, and yet can be removed from the members |
| ChatDirectory.AdminScenario | server/controllers/chatControllers.js:137-258 | The same sequence for any group whose owner is a member and that has no admins yet |
| ChatDirectory.ApplyKeepsIdentities | server/controllers/chatControllers.js:9-258 | Each handler, successful or not, keeps every chat's kind, main admin and creation time, and every message |
| ChatDirectory.RunKeepsIdentities | server/controllers/chatControllers.js:9-258 | No sequence of chat requests deletes a chat or a message, turns a direct chat into a group or back, or reassigns a main admin |
| MessageService.Post | server/controllers/messageControllers.js:21-29 | A send appends exactly one message and points the named chat, if it exists, at it; every other chat is untouched |
| MessageService.SendMessage | server/controllers/messageControllers.js:9-36 | Fails (400) exactly when content is missing or empty or the chat id is missing; otherwise the message is appended with the sender, the trimmed text and the chat id, and becomes the chat's latest message: that chat changes only in `latestMessage` and `updatedAt`, every other chat is untouched |
| MessageService.AttachmentKind | server/controllers/messageControllers.js:57 | The media type has no slash in it |
| MessageService.AttachmentKindIsPrefix | server/controllers/messageControllers.js:57 | The media type is the mimetype up to its first slash, or the whole mimetype when there is none |
| MessageService.AttachmentContent | server/controllers/messageControllers.js:59-64 | The stored record carries the media type and the path `/uploads/` followed by the file name |
| MessageService.SendAttachmentMessage | server/controllers/messageControllers.js:41-83 | A missing chat id or file is refused with 400, a failed move with 500, and nothing is written; otherwise one attachment message is appended and becomes the chat's latest message |
| MessageService.MessagesOf | server/controllers/messageControllers.js:90 | Selects exactly the messages of the chat, in ascending store order |
| MessageService.GetMessages | server/controllers/messageControllers.js:88-99 | The listing holds exactly the chat's messages, in store order |
| MessageService.MessagesOfAppend | server/controllers/messageControllers.js:90 | One more stored message appears at the end of its own chat's listing and in no other |
| MessageService.SentMessageIsListedLast | server/controllers/messageControllers.js:21-92 | After a send, the chat's listing is the old listing followed by the new message, and other chats' listings are unchanged |
| MessageService.BlankTextIsStoredEmpty | server/controllers/messageControllers.js:13-21 | Validation reads the raw text and the schema trims afterwards, so a text of blanks is accepted and stored empty |
| MessageService.SendToUnknownChat | server/controllers/messageControllers.js:13-29 | A send to an id that names no chat still stores the message and changes no chat |
| Gateway.Join | server/index.js:55-61 | Joining adds the socket to the named room and leaves every other room alone |
| Gateway.FanOut | server/index.js:70-74 | Every emission goes to a member's room other than the sender's, excludes the raising socket, and carries the message |
| Gateway.FanOutTargetsOthers | server/index.js:70-74 | The rooms addressed are the chat's member list with the sender's entries dropped, in order |
| Gateway.Handle | server/index.js:54-79 | Only setup and join change rooms, each by adding the raising socket to one room (the user's, or the named one). Setup answers the raising socket alone with `connected`; every other emission goes to a room and skips the raising socket. A message without a member list emits nothing; otherwise it targets exactly the listed users other than the sender, in list order. A typing signal is one emission to the named room |
| Gateway.NoEcho | server/index.js:65-79 | No message or typing signal reaches the socket that raised it, and no message is addressed to the sender's own room |
| Gateway.TypingReachesRoomOnly | server/index.js:77-79 | A typing signal reaches exactly the other sockets of the named room |
| Gateway.SetupThenReceive | server/index.js:55-74 | A socket set up for a user receives a message another socket relays for a chat listing that user, unless the user sent it |
| Gateway.RunOnlyJoins | server/index.js:54-84 | No sequence of events takes a socket out of a room |
| Strings.Trim | client/src/pages/ChatHeader.jsx:94 | `trim` leaves no whitespace at either end and leaves a trimmed string alone |
| Strings.TrimIdempotent | client/src/pages/ChatHeader.jsx:100 | Trimming twice is trimming once |
| Strings.TrimPadding | client/src/pages/ChatHeader.jsx:135 | `trim` removes exactly the whitespace padding around a trimmed string |
| Strings.Split | client/src/pages/ChatHeader.jsx:94 | `split` gives at least one part and no part holds the separator |
| Strings.JoinSplit | client/src/pages/ChatHeader.jsx:94-100 | Joining the parts of a split gives the string back |
| Strings.SplitJoin | client/src/pages/ChatHeader.jsx:94-100 | Splitting a join of separator-free parts gives the parts back |
| Strings.SplitCount | client/src/pages/ChatHeader.jsx:106-108 | A split has one more part than the string has separators |
| Strings.SplitSingle | client/src/pages/ChatHeader.jsx:108 | A split has a single part exactly when the separator is absent |
| Strings.SplitFirst | client/src/pages/ChatHeader.jsx:112 | The first part is everything before the first separator |
| Strings.SplitLast | client/src/pages/ChatHeader.jsx:113 | The last part is everything after the last separator |
| Strings.ContainsInfix | client/src/pages/Chats.jsx:85 | A string that includes some text includes every piece of that text |
| ChatHeader.CapitalizeWord | client/src/pages/ChatHeader.jsx:97 | One part keeps its length, gets its first character upper-cased and keeps the rest |
| ChatHeader.Capitalize | client/src/pages/ChatHeader.jsx:91-101 | A non-string gives ""; otherwise the result is the trimmed name with its first character and every character after a space upper-cased, nothing else changed |
| ChatHeader.SplitCapitalizeJoin | client/src/pages/ChatHeader.jsx:94-100 | Split, capitalize each part, join equals the character-wise reference |
| ChatHeader.CapitalizeIsReference | client/src/pages/ChatHeader.jsx:91-101 | The handler's result equals the character-wise reference on the trimmed name |
| ChatHeader.CapitalizeKeepsParts | client/src/pages/ChatHeader.jsx:94-100 | Capitalizing keeps the number of parts and changes only letter case |
| ChatHeader.CapitalizeIdempotent | client/src/pages/ChatHeader.jsx:91-101 | Capitalizing a capitalized name changes nothing |
| ChatHeader.CapitalizeLower | client/src/pages/ChatHeader.jsx:109 | One part keeps its length, gets its first character upper-cased and the rest lower-cased |
| ChatHeader.NormalizeTwice | client/src/pages/ChatHeader.jsx:109 | Normalizing a part twice is normalizing it once |
| ChatHeader.FirstLast | client/src/pages/ChatHeader.jsx:112-115 | The first-last display of a name with a space is already trimmed |
| ChatHeader.NameParts | client/src/pages/ChatHeader.jsx:106-113 | A name with a space splits into at least two parts, the first before the first space and the last after the last space |
| ChatHeader.FirstLastOfParts | client/src/pages/ChatHeader.jsx:112-115 | The handler's first and last part, normalized, joined and trimmed, is the first-last display |
| ChatHeader.DisplayOfParts | client/src/pages/ChatHeader.jsx:106-115 | A name without a space displays as the normalized name, one with a space as its first-last form, and both are trimmed |
| ChatHeader.CapitalizeFirstLast | client/src/pages/ChatHeader.jsx:103-116 | A non-string gives ""; a single word is case-normalized; otherwise only the first and last words appear, normalized and joined by one space; the result is trimmed |
| ChatHeader.FirstLastStable | client/src/pages/ChatHeader.jsx:112-115 | A first-last display has exactly two parts and displays as itself |
| ChatHeader.CapitalizeFirstLastIdempotent | client/src/pages/ChatHeader.jsx:103-116 | A displayed name has at most two parts, and displaying it again changes nothing |
| ChatHeader.ConfirmRename | client/src/pages/ChatHeader.jsx:133-140 | The input is only hidden exactly when the trimmed input is empty or equals the current name; otherwise the trimmed, non-empty, different name is sent |
| ChatHeader.RenameToSameNameIsSkipped | client/src/pages/ChatHeader.jsx:135-140 | Re-entering the stored name, padded with whitespace or not, sends nothing |
| ChatHeader.SentRenameIsStored | client/src/pages/ChatHeader.jsx:143-151 | A sent name is stored as sent, and the local copy agrees with the stored chat up to the update time |
| ChatHeader.RenamedListAgrees | client/src/pages/ChatHeader.jsx:153-154 | After a rename the server accepted, the page's patched chat list keeps every entry's id and agrees with the stored chats, the renamed one included, up to the update time |
| ChatHeader.ShowsAdminControls | client/src/pages/ChatHeader.jsx:329-339 | The rename, picture and add-user controls are shown to the main admin and to every group admin, and to nobody else |
| ChatHeader.AdminControlsFollowServerRoles | client/src/pages/ChatHeader.jsx:329-339 | A user the server has just promoted sees the admin controls; a user it has just demoted does not |
| ChatHeader.ControlsFor | client/src/pages/ChatHeader.jsx:382-403 | A member gets controls exactly when the viewer is an admin and the member is neither the viewer nor the main admin; the toggle offered is "Remove Admin" exactly when the member is an admin, otherwise "Set as Admin" |
| ChatHeader.OfferedControlsAreAccepted | client/src/pages/ChatHeader.jsx:382-403 | Every control the page offers on a member of the stored chat is a request the server accepts |
| ChatHeader.OffersAdd | client/src/pages/ChatHeader.jsx:424 | "Add" is offered exactly when no member of the chat has the candidate's id |
| ChatHeader.AddOfferedIffAccepted | client/src/pages/ChatHeader.jsx:424-431 | "Add" is offered exactly for the users the server would add |
| ChatHeader.LocalRename | client/src/pages/ChatHeader.jsx:148-151 | The local copy takes the new name and changes nothing else |
| ChatHeader.LocalAddUser | client/src/pages/ChatHeader.jsx:235-238 | The local copy gains the user at the end of the members, keeps every earlier member in order and changes nothing else |
| ChatHeader.LocalSetAdmin | client/src/pages/ChatHeader.jsx:254-257 | The local copy gains the user at the end of the admins, keeps every earlier admin in order and changes nothing else |
| ChatHeader.LocalAddThenRemove | client/src/pages/ChatHeader.jsx:235-291 | Adding then removing a non-member, or promoting then demoting a non-admin, restores the local copy |
| ChatHeader.LocalRemoveAdmin | client/src/pages/ChatHeader.jsx:273-274 | The local filter drops the user from the admins, keeps the other admins and changes nothing else |
| ChatHeader.LocalRemoveUser | client/src/pages/ChatHeader.jsx:290-291 | The local filter drops the user from the members, keeps the other members and changes nothing else |
| ChatHeader.LocalUpdatesAgree | client/src/pages/ChatHeader.jsx:235-291 | After an accepted add, promote, demote or remove, the page's patched copy equals the chat the server stored, up to the update time |
| ChatHeader.Patch | client/src/pages/ChatHeader.jsx:66-70 | The list patch changes only the entries with the given id and keeps order and ids |
| ChatHeader.AfterAttachment | client/src/pages/ChatHeader.jsx:63-71 | The log gains the new message at its end, and only the open chat's entry gets it as latest message |
| ChatHeader.AfterAttachmentRepeat | client/src/pages/ChatHeader.jsx:63-71 | Applying the chat-list update twice for one message is applying it once |
| ChatHeader.AttachmentViewAgrees | client/src/pages/ChatHeader.jsx:43-71 | After an upload, a page that mirrored the store lists what the store lists, and every entry agrees with its stored chat up to the update time |
| ChatsPage.Matches | client/src/pages/Chats.jsx:85 | The empty term matches every card, a match is never longer than the card's name, and a card matches its own name in any letter case |
| ChatsPage.Keep | client/src/pages/Chats.jsx:84-86 | The filter keeps exactly the cards whose lower-cased name includes the lower-cased term |
| ChatsPage.KeepAppend | client/src/pages/Chats.jsx:84-86 | Filtering works card by card, so kept cards stay in list order |
| ChatsPage.FilterChats | client/src/pages/Chats.jsx:80-88 | An empty term shows every card; any term shows exactly the matching cards |
| ChatsPage.EmptyTermKeepsAll | client/src/pages/Chats.jsx:81-86 | The empty-term shortcut agrees with filtering by the empty term |
| ChatsPage.FilterIgnoresTermCase | client/src/pages/Chats.jsx:85 | The cards shown do not depend on the case the term is typed in |
| ChatsPage.TypingNarrows | client/src/pages/Chats.jsx:84-86 | Typing more characters only removes cards |
| ChatsPage.SelectPath | client/src/pages/Chats.jsx:90-93 | Links point into `group-chats` when the pathname mentions it, else into `chats` when it mentions that, else the section is kept |
| ChatsPage.PathFollowsSection | client/src/pages/Chats.jsx:90-93 | Inside either section the links point back into that section |
| ChatsPage.ParseInt | client/src/pages/Chats.jsx:96 | After leading whitespace and an optional sign, the result is NaN exactly when no digit follows (a hexadecimal digit after a `0x` prefix, a decimal digit otherwise); blank text is NaN; a negative result comes only from a minus sign, which negates the unsigned value |
| ChatsPage.ParseSkipsWhitespace | client/src/pages/Chats.jsx:96 | Leading whitespace never changes what a route id parses to |
| ChatsPage.ParseDecimal | client/src/pages/Chats.jsx:96 | The decimal numeral of any integer, followed by text that does not continue it, parses back to that integer |
| ChatsPage.IsActiveChat | client/src/pages/Chats.jsx:95-97 | Without a route id no card is active; a card is active exactly when the route id parses to its id |
| ChatsPage.ExactlyOneCardActive | client/src/pages/Chats.jsx:95-97 | On the route written for chat n, exactly the card with id n is active |
| ChatsPage.TrailingTextIgnored | client/src/pages/Chats.jsx:96 | A route id such as `7-lunch` activates chat 7 |
| ChatsPage.HexRouteId | client/src/pages/Chats.jsx:96 | A route id `0x1A` activates chat 26 |
| ChatsPage.WordRouteIdActivatesNothing | client/src/pages/Chats.jsx:96 | A route id without digits activates no card |
| ChatPage.BubbleAt | client/src/pages/Chat.jsx:80 | A bubble is on the "me" side exactly for messages sent by "me", and has no gap exactly when its sender also sent the previous message |
| ChatPage.Bubbles | client/src/pages/Chat.jsx:79-83 | The rendered list has one bubble per message, styled as above |
| ChatPage.AppendKeepsBubbles | client/src/pages/Chat.jsx:80 | A newly arrived message never restyles the bubbles before it |
| ChatPage.Gaps | client/src/pages/Chat.jsx:80 | A non-empty conversation has between one and as many gaps as messages |
| ChatPage.GapsCountGappedBubbles | client/src/pages/Chat.jsx:80 | The gap count is exactly the number of bubbles rendered without the `no-gap` class |
| ChatPage.OneSenderOneRun | client/src/pages/Chat.jsx:80 | Messages by a single sender form one run with a single gap |
| ChatPage.AlternatingAllGaps | client/src/pages/Chat.jsx:80 | Strictly alternating senders give every bubble a gap |
| ChatPage.OnBack | client/src/pages/Chat.jsx:34-42 | Without a chat id nothing happens; otherwise the page returns to the section the pathname is in, and does nothing outside both sections. The chat header's `onBack` (client/src/pages/ChatHeader.jsx:80-88) is the same function |
| ChatPage.SectionsAreDisjoint | client/src/pages/Chat.jsx:36-40 | No pathname starts with both `/chats` and `/group-chats` |
| Sidebar.IsActiveLink | client/src/components/Sidebar.jsx:16-24 | The two chat links are active on every pathname inside their section; any link is active on its own pathname; other links only there |
| Sidebar.AtMostOneActive | client/src/components/Sidebar.jsx:16-35 | At most one of the three sidebar links is highlighted on any pathname |
| Sidebar.GroupChatsAreNotChats | client/src/components/Sidebar.jsx:16-24 | Inside the group section the group link is active and the direct chats link is not |
| Sidebar.BackLandsOnActiveSection | client/src/components/Sidebar.jsx:16-24 | The back button of the chat page leads to the section whose link is highlighted |

## Findings

| source | as written | input that shows it | evidently intended | confidence | as-written member | corrected member |
|---|---|---|---|---|---|---|
| server/controllers/chatControllers.js:82 | The status 400 is passed to `next` as a second argument, so the "Fill in all fields" error carries no status code | A `creategroup` request without `name` (or without `users`) | The error carries status 400, like every other validation error of the server | medium, not executed | ChatDirectory.CreateGroupChatAsWritten | ChatDirectory.CreateGroupChat |

`ChatDirectory.CreateGroupStatusFinding` exhibits the difference. The rest
of the model, including `ChatDirectory.Apply`, uses the corrected handler.
How a missing status is finally reported depends on the error middleware and
the `HttpError` class, which are not part of this model.

## Left out

- HTTP routing, the authentication middleware, `populate`, response serialization and the user controllers: they only transport or decorate the records the model works on.
- ChatDirectory.AccessChat: the requester is an id. `req.user._id` is taken as given.
- ChatDirectory.CreateGroupChat: `JSON.parse` is reduced to "absent, unparsable or a list of ids". A request whose `users` parses to something other than an array is not modelled. The pushed `req.user` is modelled by its id.
- ChatDirectory.RenameGroup: takes the new name as a string. A request without `chatName` is not modelled, because what Mongoose then stores depends on its version.
- Chat ids are store positions. A malformed chat id makes Mongoose throw a cast error: in `findById` for the chat handlers, in `Message.create` for `sendMessage`, and in `Message.find` for `getMessages`. The handler's catch then answers 500. This failure is not modelled; an id naming no chat is.
- MessageService.SendAttachmentMessage: `Message.create`, the populates and the chat update run inside the asynchronous `file.mv` callback, outside the handler's `try`/`catch`. A failure there, such as a cast error on a malformed chat id or any database error after the move, is an unhandled rejection. No response is sent and the moved file stays in the upload directory. That outcome is not modelled: once the move succeeds, the model always stores the message.
- ChatDirectory.AccessChat, ChatDirectory.SetAdmin, ChatDirectory.AddToGroup, ChatDirectory.CreateGroupChat: user ids are plain strings and any string is accepted. In the code, an id that is not a valid ObjectId makes Mongoose throw a cast error (in the `$all` query, in `$push`, or in `Chat.create` for an id in the parsed `users` list), and the handler answers 500; the model does not have that failure.
- MessageService.SendAttachmentMessage: the code stores an attachment as a JSON string in the message's `content`, so a text message with that exact text cannot be told apart from an attachment. The model keeps the two apart as `Text` and `Attachment`.
- MessageService.SendAttachmentMessage: moving the file to disk is the boolean `moved`. The upload directory and file contents are not modelled.
- The handlers run one at a time. Concurrent requests and the time between `findById` and `findByIdAndUpdate` are not modelled.
- Gateway.Handle: a `new message` payload without `chat`, a message whose chat lists users but which has no `sender`, and a `setup` without `userData` all make the listener throw a TypeError, because it reads `chat.users`, `sender._id` and `userData._id` without a guard. Nothing catches it and nothing is emitted. The model has no such payloads: a payload always carries a sender id, a setup always carries a user id, and only a missing member list (`chatUsers` absent) is represented, which emits nothing as the code does.
- Socket transport, delivery, the `connection` lifetime and `disconnect` are not modelled. `console.log` is dropped.
- Strings.Upper and Strings.Lower: case mapping is ASCII only. JavaScript's `toUpperCase` and `toLowerCase` map all of Unicode. `charAt` and `slice` count UTF-16 code units, but the model counts Unicode scalar values.
- ChatsPage.ParseInt: integers are unbounded. JavaScript numbers lose precision above 2^53 and overflow to `Infinity`.
- ChatHeader.Capitalize and ChatHeader.CapitalizeFirstLast: `typeof fullName !== 'string'` is modelled as an absent name.
- ChatHeader.ControlsFor: requires a main admin, because the page reads `chatInfo.mainAdmin._id` and fails without one.
- The client's network calls, the group-picture upload (`changeGroupPic`), user search, focus and scrolling are not modelled. The only parts kept are the local state updates after a successful request: the open chat's copy and, for a rename or an upload, the chat list.
- The chat list and chat page render hard-coded demo data. The model takes the cards and the senders as parameters.
- The sidebar's mobile toggle and logout link are not modelled.

=== FILE: chat_directory.dfy ===
/** The chat handlers of the server (`accessChat`, `getChats`,
    `createGroupChat`, `renameGroup`, `setAdmin`, `removeAdmin`,
    `addToGroup`, `removeFromGroup`) as transitions of the store. Every
    handler looks the chat up, checks one list membership, and then either
    fails or applies one push, one pull or one field update. None of them
    checks who the requester is. */
module ChatDirectory {
  import opened Strings
  import opened Seqs
  import opened Records

  const ChatNotFound := HttpError("Chat not found", Some(404))

  /*********************************************************************
   * Direct chats
   *********************************************************************/

  /** The lookup `{isGroupChat: false, users: {$all: [a, b]}}`. */
  predicate IsDirectWith(c: Chat, a: UserId, b: UserId) {
    !c.isGroupChat && a in c.users && b in c.users
  }

  /** `findOne`: the first chat in natural order, from position `from` on,
      that is a direct chat holding both users. */
  function FindDirect(chats: seq<Chat>, a: UserId, b: UserId, from: nat): (r: Option<ChatId>)
    requires from <= |chats|
    ensures r.Some? ==> from <= r.value < |chats| && IsDirectWith(chats[r.value], a, b)
    ensures r.Some? ==> forall j :: from <= j < r.value ==> !IsDirectWith(chats[j], a, b)
    ensures r.None? ==> forall j :: from <= j < |chats| ==> !IsDirectWith(chats[j], a, b)
    decreases |chats| - from
  {
    if from == |chats| then None
    else if IsDirectWith(chats[from], a, b) then Some(from)
    else FindDirect(chats, a, b, from + 1)
  }

  /** The chat `accessChat` creates when none exists yet. */
  predicate IsFreshDirect(c: Chat, a: UserId, b: UserId, now: Time) {
    && c.chatName == "sender"
    && !c.isGroupChat
    && c.users == [a, b]
    && c.mainAdmin.None? && c.groupAdmins == [] && c.latestMessage.None?
    && c.createdAt == now && c.updatedAt == now
  }

  /** The chat `accessChat` creates: named "sender", explicitly direct. */
  function NewDirect(a: UserId, b: UserId, now: Time): (c: Chat)
    ensures IsFreshDirect(c, a, b, now)
  {
    assert Trimmed("sender") by {
      assert "sender"[0] == 's' && "sender"[5] == 'r';
    }
    NewChat("sender", Some(false), [a, b], None, now)
  }

  /** `accessChat`: find the direct chat of the requester and `userId`, or
      create it. */
  function AccessChat(s: Store, requester: UserId, userId: Option<UserId>, now: Time): (r: Outcome<ChatId>)
    ensures r.Failed? <==> Falsy(userId)
    ensures r.Failed? ==> r.error == HttpError("UserId is required", Some(400))
    ensures r.Done? ==>
      (r.value < |r.store.chats| && IsDirectWith(r.store.chats[r.value], requester, userId.value))
    ensures r.Done? ==> (r.store == s <==> HasDirect(s.chats, requester, userId.value))
    ensures r.Done? && r.store != s ==>
      && |r.store.chats| == |s.chats| + 1
      && r.value == |s.chats|
      && r.store.messages == s.messages
      && r.store.chats[..|s.chats|] == s.chats
      && IsFreshDirect(r.store.chats[r.value], requester, userId.value, now)
  {
    if Falsy(userId) then Failed(HttpError("UserId is required", Some(400)))
    else
      var u := userId.value;
      match FindDirect(s.chats, requester, u, 0)
      case Some(id) =>
        assert HasDirect(s.chats, requester, u) by {
          assert IsDirectWith(s.chats[id], requester, u);
        }
        Done(s, id)
      case None =>
        assert !HasDirect(s.chats, requester, u);
        Done(AddDirect(s, requester, u, now), |s.chats|)
  }

  /** The store with a fresh direct chat of `a` and `b` appended. */
  function AddDirect(s: Store, a: UserId, b: UserId, now: Time): (r: Store)
    ensures |r.chats| == |s.chats| + 1 && r != s
    ensures r.messages == s.messages && r.chats[..|s.chats|] == s.chats
    ensures IsFreshDirect(r.chats[|s.chats|], a, b, now)
    ensures IsDirectWith(r.chats[|s.chats|], a, b)
  {
    var chats := s.chats + [NewDirect(a, b, now)];
    assert chats[..|s.chats|] == s.chats;
    s.(chats := chats)
  }

  /** Some chat of `chats` is a direct chat holding both users. */
  predicate HasDirect(chats: seq<Chat>, a: UserId, b: UserId) {
    exists j :: 0 <= j < |chats| && IsDirectWith(chats[j], a, b)
  }

  /** Starting the same direct chat again, from either side, finds the chat
      the first call returned and creates nothing. */
  lemma AccessChatIsIdempotent(s: Store, a: UserId, b: UserId, t1: Time, t2: Time)
    requires b != "" && a != ""
    ensures var r1 := AccessChat(s, a, Some(b), t1);
      && r1.Done?
      && AccessChat(r1.store, a, Some(b), t2) == Done(r1.store, r1.value)
      && AccessChat(r1.store, b, Some(a), t2) == Done(r1.store, r1.value)
  {
    var r1 := AccessChat(s, a, Some(b), t1);
    var chats := r1.store.chats;
    FirstDirectIsUnique(chats, a, b, r1.value);
    FirstDirectIsUnique(chats, b, a, r1.value);
  }

  /** The first matching chat is the one `FindDirect` returns. */
  lemma FirstDirectIsUnique(chats: seq<Chat>, a: UserId, b: UserId, id: ChatId)
    requires id < |chats| && IsDirectWith(chats[id], a, b)
    requires forall j :: 0 <= j < id ==> !IsDirectWith(chats[j], a, b)
    ensures FindDirect(chats, a, b, 0) == Some(id)
  {
  }

  /** No two direct chats hold the same pair of distinct users. */
  ghost predicate DirectPairsUnique(chats: seq<Chat>) {
    forall i, j, a, b ::
      (0 <= i < |chats| && 0 <= j < |chats| && a != b
       && IsDirectWith(chats[i], a, b) && IsDirectWith(chats[j], a, b)) ==> i == j
  }

  /** `accessChat` never creates a second direct chat for a pair. */
  lemma AccessChatKeepsPairsUnique(s: Store, requester: UserId, userId: Option<UserId>, now: Time)
    requires DirectPairsUnique(s.chats)
    ensures var r := AccessChat(s, requester, userId, now);
      r.Done? ==> DirectPairsUnique(r.store.chats)
  {
    var r := AccessChat(s, requester, userId, now);
    if r.Done? && r.store != s {
      var chats := r.store.chats;
      var n := |s.chats|;
      forall i, j, a, b |
        0 <= i < |chats| && 0 <= j < |chats| && a != b
        && IsDirectWith(chats[i], a, b) && IsDirectWith(chats[j], a, b)
        ensures i == j
      {
        if i == n || j == n {
          var u := userId.value;
          assert a in [requester, u] && b in [requester, u];
          assert forall k :: 0 <= k < n ==> !IsDirectWith(chats[k], requester, u);
        } else {
          assert IsDirectWith(s.chats[i], a, b) && IsDirectWith(s.chats[j], a, b);
        }
      }
    }
  }

  /*********************************************************************
   * Listing
   *********************************************************************/

  /** Ids of the chats from `from` on whose users include `u`, ascending. */
  function MemberChats(chats: seq<Chat>, u: UserId, from: nat): (r: seq<ChatId>)
    requires from <= |chats|
    ensures forall id: ChatId ::
      multiset(r)[id] == (if from <= id < |chats| && u in chats[id].users then 1 else 0)
    decreases |chats| - from
  {
    if from == |chats| then []
    else
      var rest := MemberChats(chats, u, from + 1);
      if u in chats[from].users then [from] + rest else rest
  }

  /** The ids in `ids` name chats and are listed newest update first. */
  ghost predicate NewestFirst(chats: seq<Chat>, ids: seq<ChatId>) {
    && (forall k :: 0 <= k < |ids| ==> ids[k] < |chats|)
    && (forall i, j :: 0 <= i < j < |ids| ==> chats[ids[i]].updatedAt >= chats[ids[j]].updatedAt)
  }

  function InsertByUpdate(chats: seq<Chat>, id: ChatId, ids: seq<ChatId>): (r: seq<ChatId>)
    requires id < |chats| && NewestFirst(chats, ids)
    ensures NewestFirst(chats, r)
    ensures multiset(r) == multiset(ids) + multiset{id}
  {
    if |ids| == 0 then [id]
    else if chats[id].updatedAt >= chats[ids[0]].updatedAt then [id] + ids
    else
      var rest := InsertByUpdate(chats, id, ids[1..]);
      assert ids == [ids[0]] + ids[1..];
      HeadPrecedesInsertion(chats, id, ids, rest);
      [ids[0]] + rest
  }

  /** The head of a newest-first list stays ahead of anything inserted
      later than it into its tail. */
  lemma HeadPrecedesInsertion(chats: seq<Chat>, id: ChatId, ids: seq<ChatId>, rest: seq<ChatId>)
    requires id < |chats| && |ids| > 0 && NewestFirst(chats, ids)
    requires chats[id].updatedAt < chats[ids[0]].updatedAt
    requires NewestFirst(chats, rest) && multiset(rest) == multiset(ids[1..]) + multiset{id}
    ensures NewestFirst(chats, [ids[0]] + rest)
  {
    var r := [ids[0]] + rest;
    forall k | 0 <= k < |rest|
      ensures chats[ids[0]].updatedAt >= chats[rest[k]].updatedAt
    {
      assert rest[k] in multiset(rest);
      if rest[k] != id {
        assert rest[k] in multiset(ids[1..]);
        var j :| 0 <= j < |ids[1..]| && ids[1..][j] == rest[k];
        assert ids[j + 1] == rest[k];
      }
    }
    forall i, j | 0 <= i < j < |r|
      ensures chats[r[i]].updatedAt >= chats[r[j]].updatedAt
    {
      if i > 0 {
        assert r[i] == rest[i - 1] && r[j] == rest[j - 1];
      }
    }
  }

  /** `.sort({updatedAt: -1})`. The order of chats with equal timestamps
      is unspecified, so only newest-first and the contents are promised. */
  function SortByUpdate(chats: seq<Chat>, ids: seq<ChatId>): (r: seq<ChatId>)
    requires forall k :: 0 <= k < |ids| ==> ids[k] < |chats|
    ensures NewestFirst(chats, r)
    ensures multiset(r) == multiset(ids)
  {
    if |ids| == 0 then []
    else
      assert ids == [ids[0]] + ids[1..];
      InsertByUpdate(chats, ids[0], SortByUpdate(chats, ids[1..]))
  }

  /** `getChats`: every chat whose users include the requester, each
      exactly once, most recently updated first. */
  function GetChats(s: Store, requester: UserId): (r: seq<ChatId>)
    ensures forall id: ChatId ::
      multiset(r)[id] == (if id < |s.chats| && requester in s.chats[id].users then 1 else 0)
    ensures forall id: ChatId :: id in r <==> id < |s.chats| && requester in s.chats[id].users
    ensures NewestFirst(s.chats, r)
  {
    var ids := MemberChats(s.chats, requester, 0);
    forall k | 0 <= k < |ids|
      ensures ids[k] < |s.chats|
    {
      assert multiset(ids)[ids[k]] > 0;
    }
    var r := SortByUpdate(s.chats, ids);
    assert forall id: ChatId :: id in r <==> multiset(r)[id] > 0;
    r
  }

  /*********************************************************************
   * Groups
   *********************************************************************/

  /** The `users` field of the request body: absent (or empty), not a
      JSON array `JSON.parse` can read, or a parsed list of user ids. */
  datatype UsersField = Absent | Unparsable | Parsed(ids: seq<UserId>)

  /** The group chat `createGroupChat` builds from the parsed list. */
  function NewGroup(requester: UserId, ids: seq<UserId>, name: string, now: Time): Chat {
    NewChat(name, Some(true), ids + [requester], Some(requester), now)
  }

  /** The shared tail of `createGroupChat` once both fields are present. */
  function CreateFromFields(s: Store, requester: UserId, users: UsersField, name: string, now: Time): Outcome<ChatId>
    requires !users.Absent?
  {
    var tooFew: Outcome<ChatId> := Failed(HttpError("At least 2 users are required to form a group chat", Some(400)));
    match users
    case Unparsable => Failed(Exception(500))
    case Parsed(ids) =>
      if |ids| < 1 then tooFew
      else Done(s.(chats := s.chats + [NewGroup(requester, ids, name, now)]), |s.chats|)
  }

  /** `createGroupChat` as written: the missing-field error is built without
      a status code, because the code 400 is handed to `next` as a second
      argument instead of to the error. */
  function CreateGroupChatAsWritten(s: Store, requester: UserId, users: UsersField,
                                    name: Option<string>, now: Time): Outcome<ChatId>
  {
    if users.Absent? || Falsy(name) then Failed(HttpError("Fill in all fields", None))
    else CreateFromFields(s, requester, users, name.value, now)
  }

  /** `createGroupChat` with the missing-field error carrying status 400, as
      every other validation error of the server does. The requester is
      appended to the given list and becomes the main admin. */
  function CreateGroupChat(s: Store, requester: UserId, users: UsersField,
                           name: Option<string>, now: Time): (r: Outcome<ChatId>)
    ensures r.Failed? <==>
      users.Absent? || Falsy(name) || users.Unparsable? || (users.Parsed? && users.ids == [])
    ensures (users.Absent? || Falsy(name)) ==> r == Failed(HttpError("Fill in all fields", Some(400)))
    ensures !(users.Absent? || Falsy(name)) && users.Unparsable? ==> r == Failed(Exception(500))
    ensures !(users.Absent? || Falsy(name)) && users.Parsed? && users.ids == [] ==>
      r == Failed(HttpError("At least 2 users are required to form a group chat", Some(400)))
    ensures r.Failed? ==> r.error.HttpError? ==> r.error.code == Some(400)
    ensures r.Done? ==>
      && |r.store.chats| == |s.chats| + 1
      && r.value == |s.chats|
      && r.store.messages == s.messages
      && r.store.chats[..|s.chats|] == s.chats
    ensures r.Done? ==> var c := r.store.chats[r.value];
      && c.isGroupChat
      && c.users == users.ids + [requester]
      && c.mainAdmin == Some(requester)
      && c.mainAdmin.value in c.users
      && c.chatName == Trim(name.value)
      && c.groupAdmins == [] && c.latestMessage.None?
  {
    if users.Absent? || Falsy(name) then Failed(HttpError("Fill in all fields", Some(400)))
    else CreateFromFields(s, requester, users, name.value, now)
  }

  /** The two versions differ only in the status of the missing-field error. */
  lemma CreateGroupStatusFinding(s: Store, requester: UserId, users: UsersField,
                                 name: Option<string>, now: Time)
    ensures (users.Absent? || Falsy(name)) ==>
      && CreateGroupChatAsWritten(s, requester, users, name, now).error.code.None?
      && CreateGroupChat(s, requester, users, name, now).error.code == Some(400)
    ensures !(users.Absent? || Falsy(name)) ==>
      CreateGroupChatAsWritten(s, requester, users, name, now) == CreateGroupChat(s, requester, users, name, now)
  {
  }

  /** The chat `id` after `c` replaced it. */
  function Save(s: Store, id: ChatId, c: Chat): (r: Outcome<Chat>)
    requires id < |s.chats|
    ensures r.Done? && r.value == c
    ensures |r.store.chats| == |s.chats| && r.store.chats[id] == c
    ensures OnlyChatChanged(s, r.store, id)
  {
    Done(s.(chats := s.chats[id := c]), c)
  }

  /** Fields no group handler writes: kind, owner, latest message, birth. */
  predicate SameIdentity(c: Chat, c': Chat) {
    && c'.isGroupChat == c.isGroupChat
    && c'.mainAdmin == c.mainAdmin
    && c'.latestMessage == c.latestMessage
    && c'.createdAt == c.createdAt
  }

  /** `renameGroup`: only the (trimmed) name and the update time change. */
  function RenameGroup(s: Store, chatId: ChatId, chatName: string, now: Time): (r: Outcome<Chat>)
    ensures r.Failed? <==> chatId >= |s.chats|
    ensures r.Failed? ==> r.error == ChatNotFound
    ensures r.Done? ==> OnlyChatChanged(s, r.store, chatId) && r.value == r.store.chats[chatId]
    ensures r.Done? ==> var c := s.chats[chatId];
      && SameIdentity(c, r.value)
      && r.value.users == c.users && r.value.groupAdmins == c.groupAdmins
      && r.value.chatName == Trim(chatName) && Trimmed(r.value.chatName)
      && r.value.updatedAt == now
  {
    if chatId >= |s.chats| then Failed(ChatNotFound)
    else
      var c := s.chats[chatId];
      Save(s, chatId, c.(chatName := Trim(chatName), updatedAt := now))
  }

  /** `setAdmin`: push the user onto `groupAdmins` unless already there. */
  function SetAdmin(s: Store, chatId: ChatId, userId: UserId, now: Time): (r: Outcome<Chat>)
    ensures r.Failed? <==> chatId >= |s.chats| || userId in s.chats[chatId].groupAdmins
    ensures chatId >= |s.chats| ==> r == Failed(ChatNotFound)
    ensures chatId < |s.chats| && userId in s.chats[chatId].groupAdmins ==>
      r == Failed(HttpError("User is already an admin", Some(400)))
    ensures r.Done? ==> OnlyChatChanged(s, r.store, chatId) && r.value == r.store.chats[chatId]
    ensures r.Done? ==> var c := s.chats[chatId];
      && SameIdentity(c, r.value)
      && r.value.chatName == c.chatName && r.value.users == c.users
      && r.value.groupAdmins == c.groupAdmins + [userId]
      && r.value.updatedAt == now
  {
    if chatId >= |s.chats| then Failed(ChatNotFound)
    else
      var c := s.chats[chatId];
      if userId in c.groupAdmins then Failed(HttpError("User is already an admin", Some(400)))
      else Save(s, chatId, c.(groupAdmins := c.groupAdmins + [userId], updatedAt := now))
  }

  /** `removeAdmin`: pull the user from `groupAdmins`, refusing the main
      admin and non-admins. A chat without a main admin makes the handler's
      `mainAdmin.toString()` throw, which it reports as a server error. */
  function RemoveAdmin(s: Store, chatId: ChatId, userId: UserId, now: Time): (r: Outcome<Chat>)
    ensures r.Done? <==>
      && chatId < |s.chats|
      && s.chats[chatId].mainAdmin.Some?
      && s.chats[chatId].mainAdmin.value != userId
      && userId in s.chats[chatId].groupAdmins
    ensures chatId >= |s.chats| ==> r == Failed(ChatNotFound)
    ensures chatId < |s.chats| && s.chats[chatId].mainAdmin == Some(userId) ==>
      r == Failed(HttpError("Main admin cannot be removed", Some(400)))
    ensures chatId < |s.chats| && s.chats[chatId].mainAdmin.Some? && userId !in s.chats[chatId].groupAdmins ==>
      r == Failed(HttpError(if s.chats[chatId].mainAdmin.value == userId
                            then "Main admin cannot be removed" else "User is not an admin", Some(400)))
    ensures chatId < |s.chats| && s.chats[chatId].mainAdmin.None? ==>
      r == Failed(HttpError("Failed to remove admin", Some(500)))
    ensures r.Done? ==> OnlyChatChanged(s, r.store, chatId) && r.value == r.store.chats[chatId]
    ensures r.Done? ==> var c := s.chats[chatId];
      && SameIdentity(c, r.value)
      && r.value.chatName == c.chatName && r.value.users == c.users
      && userId !in r.value.groupAdmins
      && (forall v :: v != userId ==> multiset(r.value.groupAdmins)[v] == multiset(c.groupAdmins)[v])
      && r.value.updatedAt == now
  {
    if chatId >= |s.chats| then Failed(ChatNotFound)
    else
      var c := s.chats[chatId];
      if c.mainAdmin.None? then Failed(HttpError("Failed to remove admin", Some(500)))
      else if c.mainAdmin.value == userId then Failed(HttpError("Main admin cannot be removed", Some(400)))
      else if userId !in c.groupAdmins then Failed(HttpError("User is not an admin", Some(400)))
      else Save(s, chatId, c.(groupAdmins := RemoveAll(c.groupAdmins, userId), updatedAt := now))
  }

  /** `addToGroup`: push the user onto `users` unless already there. */
  function AddToGroup(s: Store, chatId: ChatId, userId: UserId, now: Time): (r: Outcome<Chat>)
    ensures r.Failed? <==> chatId >= |s.chats| || userId in s.chats[chatId].users
    ensures chatId >= |s.chats| ==> r == Failed(ChatNotFound)
    ensures chatId < |s.chats| && userId in s.chats[chatId].users ==>
      r == Failed(HttpError("User is already in the group", Some(400)))
    ensures r.Done? ==> OnlyChatChanged(s, r.store, chatId) && r.value == r.store.chats[chatId]
    ensures r.Done? ==> var c := s.chats[chatId];
      && SameIdentity(c, r.value)
      && r.value.chatName == c.chatName && r.value.groupAdmins == c.groupAdmins
      && r.value.users == c.users + [userId]
      && r.value.updatedAt == now
  {
    if chatId >= |s.chats| then Failed(ChatNotFound)
    else
      var c := s.chats[chatId];
      if userId in c.users then Failed(HttpError("User is already in the group", Some(400)))
      else Save(s, chatId, c.(users := c.users + [userId], updatedAt := now))
  }

  /** `removeFromGroup`: pull the user from `users`. Neither the admin list
      nor the main admin is consulted or touched. */
  function RemoveFromGroup(s: Store, chatId: ChatId, userId: UserId, now: Time): (r: Outcome<Chat>)
    ensures r.Failed? <==> chatId >= |s.chats| || userId !in s.chats[chatId].users
    ensures chatId >= |s.chats| ==> r == Failed(ChatNotFound)
    ensures chatId < |s.chats| && userId !in s.chats[chatId].users ==>
      r == Failed(HttpError("User is not in the group", Some(400)))
    ensures r.Done? ==> OnlyChatChanged(s, r.store, chatId) && r.value == r.store.chats[chatId]
    ensures r.Done? ==> var c := s.chats[chatId];
      && SameIdentity(c, r.value)
      && r.value.chatName == c.chatName && r.value.groupAdmins == c.groupAdmins
      && userId !in r.value.users
      && (forall v :: v != userId ==> multiset(r.value.users)[v] == multiset(c.users)[v])
      && r.value.updatedAt == now
  {
    if chatId >= |s.chats| then Failed(ChatNotFound)
    else
      var c := s.chats[chatId];
      if userId !in c.users then Failed(HttpError("User is not in the group", Some(400)))
      else Save(s, chatId, c.(users := RemoveAll(c.users, userId), updatedAt := now))
  }

  /*********************************************************************
   * Properties relating several handlers
   *********************************************************************/

  /** A second `setAdmin` for the same user is refused and changes nothing. */
  lemma SetAdminTwiceConflicts(s: Store, chatId: ChatId, userId: UserId, t1: Time, t2: Time)
    requires SetAdmin(s, chatId, userId, t1).Done?
    ensures SetAdmin(SetAdmin(s, chatId, userId, t1).store, chatId, userId, t2)
      == Failed(HttpError("User is already an admin", Some(400)))
  {
    var s1 := SetAdmin(s, chatId, userId, t1).store;
    assert userId in s1.chats[chatId].groupAdmins;
  }

  /** Promoting a user who is not the main admin and demoting them again
      restores the admin list. */
  lemma SetThenRemoveAdmin(s: Store, chatId: ChatId, userId: UserId, t1: Time, t2: Time)
    requires chatId < |s.chats|
    requires userId !in s.chats[chatId].groupAdmins
    requires s.chats[chatId].mainAdmin.Some? && s.chats[chatId].mainAdmin.value != userId
    ensures var r := RemoveAdmin(SetAdmin(s, chatId, userId, t1).store, chatId, userId, t2);
      r.Done? && r.value.groupAdmins == s.chats[chatId].groupAdmins
  {
    PushThenRemove(s.chats[chatId].groupAdmins, userId);
  }

  /** Adding a user who is not a member and removing them again restores the
      member list. */
  lemma AddThenRemoveMember(s: Store, chatId: ChatId, userId: UserId, t1: Time, t2: Time)
    requires chatId < |s.chats| && userId !in s.chats[chatId].users
    ensures var r := RemoveFromGroup(AddToGroup(s, chatId, userId, t1).store, chatId, userId, t2);
      r.Done? && r.value.users == s.chats[chatId].users
  {
    PushThenRemove(s.chats[chatId].users, userId);
  }

  /** `removeFromGroup` does not protect the main admin: a new group loses
      its owner from `users` while `mainAdmin` still names them. */
  lemma RemoveFromGroupCanExpelMainAdmin()
    ensures var s0 := Store([], []);
      var g := CreateGroupChat(s0, "u1", Parsed(["u2"]), Some("Team"), 0);
      var r := RemoveFromGroup(g.store, g.value, "u1", 1);
      && g.Done? && r.Done?
      && r.value.mainAdmin == Some("u1")
      && "u1" !in r.value.users
  {
  }

  /** A group created in an empty store, as the handlers then behave:
      promotion succeeds once, a repeat is refused, the main admin cannot
      be demoted, and yet the main admin can be removed from the members. */
  lemma GroupScenario(owner: UserId, others: seq<UserId>, name: string)
    requires others != [] && name != ""
    ensures var g := CreateGroupChat(Store([], []), owner, Parsed(others), Some(name), 0);
      && g.Done? && g.value == 0
      && g.store.chats[0].users == others + [owner]
      && var a := SetAdmin(g.store, 0, others[0], 1);
      && a.Done? && a.value.groupAdmins == [others[0]]
      && SetAdmin(a.store, 0, others[0], 2) == Failed(HttpError("User is already an admin", Some(400)))
      && RemoveAdmin(a.store, 0, owner, 2) == Failed(HttpError("Main admin cannot be removed", Some(400)))
      && RemoveFromGroup(a.store, 0, owner, 2).Done?
  {
    var g := CreateGroupChat(Store([], []), owner, Parsed(others), Some(name), 0);
    AdminScenario(g.store, owner, others[0]);
  }

  /** In a group whose main admin is `owner` and that has no other admins,
      promoting a member works once and then conflicts, the main admin
      cannot be demoted, but can be removed from the group. */
  lemma AdminScenario(s: Store, owner: UserId, member: UserId)
    requires |s.chats| > 0
    requires s.chats[0].mainAdmin == Some(owner) && owner in s.chats[0].users
    requires s.chats[0].groupAdmins == []
    ensures var a := SetAdmin(s, 0, member, 1);
      && a.Done? && a.value.groupAdmins == [member]
      && SetAdmin(a.store, 0, member, 2) == Failed(HttpError("User is already an admin", Some(400)))
      && RemoveAdmin(a.store, 0, owner, 2) == Failed(HttpError("Main admin cannot be removed", Some(400)))
      && RemoveFromGroup(a.store, 0, owner, 2).Done?
  {
    var a := SetAdmin(s, 0, member, 1);
    assert a.value.groupAdmins == [member];
    assert a.store.chats[0].mainAdmin == Some(owner);
    assert owner in a.store.chats[0].users;
  }

  /*********************************************************************
   * Runs of requests
   *********************************************************************/

  /** One request to the chat handlers. */
  datatype Request =
    | Access(requester: UserId, userId: Option<UserId>)
    | CreateGroup(owner: UserId, users: UsersField, name: Option<string>)
    | Rename(chat: ChatId, chatName: string)
    | Promote(chat: ChatId, target: UserId)
    | Demote(chat: ChatId, target: UserId)
    | Add(chat: ChatId, target: UserId)
    | Remove(chat: ChatId, target: UserId)

  /** The store after a request; a failed request leaves it as it was. */
  function Apply(s: Store, req: Request, now: Time): Store {
    match req
    case Access(u, v) =>
      var r := AccessChat(s, u, v, now); if r.Done? then r.store else s
    case CreateGroup(u, us, n) =>
      var r := CreateGroupChat(s, u, us, n, now); if r.Done? then r.store else s
    case Rename(id, n) =>
      var r := RenameGroup(s, id, n, now); if r.Done? then r.store else s
    case Promote(id, v) =>
      var r := SetAdmin(s, id, v, now); if r.Done? then r.store else s
    case Demote(id, v) =>
      var r := RemoveAdmin(s, id, v, now); if r.Done? then r.store else s
    case Add(id, v) =>
      var r := AddToGroup(s, id, v, now); if r.Done? then r.store else s
    case Remove(id, v) =>
      var r := RemoveFromGroup(s, id, v, now); if r.Done? then r.store else s
  }

  /** `s'` keeps every chat of `s` with its kind, owner and creation time,
      and every message. */
  ghost predicate KeepsIdentities(s: Store, s': Store) {
    && |s.chats| <= |s'.chats|
    && s'.messages == s.messages
    && forall j :: 0 <= j < |s.chats| ==>
         && s'.chats[j].isGroupChat == s.chats[j].isGroupChat
         && s'.chats[j].mainAdmin == s.chats[j].mainAdmin
         && s'.chats[j].createdAt == s.chats[j].createdAt
  }

  /** One handled request, successful or not, keeps every identity. */
  lemma ApplyKeepsIdentities(s: Store, req: Request, now: Time)
    ensures KeepsIdentities(s, Apply(s, req, now))
  {
    match req
    case Access(u, v) =>
      var r := AccessChat(s, u, v, now);
      if r.Done? && r.store != s {
        ExtensionKeepsIdentities(s, r.store);
      }
    case CreateGroup(u, us, n) =>
      var r := CreateGroupChat(s, u, us, n, now);
      if r.Done? {
        ExtensionKeepsIdentities(s, r.store);
      }
    case Rename(id, n) =>
      var r := RenameGroup(s, id, n, now);
      if r.Done? {
        UpdateKeepsIdentities(s, r.store, id);
      }
    case Promote(id, v) =>
      var r := SetAdmin(s, id, v, now);
      if r.Done? {
        UpdateKeepsIdentities(s, r.store, id);
      }
    case Demote(id, v) =>
      var r := RemoveAdmin(s, id, v, now);
      if r.Done? {
        UpdateKeepsIdentities(s, r.store, id);
      }
    case Add(id, v) =>
      var r := AddToGroup(s, id, v, now);
      if r.Done? {
        UpdateKeepsIdentities(s, r.store, id);
      }
    case Remove(id, v) =>
      var r := RemoveFromGroup(s, id, v, now);
      if r.Done? {
        UpdateKeepsIdentities(s, r.store, id);
      }
  }

  /** A store that only appends chats keeps the identities of the old ones. */
  lemma ExtensionKeepsIdentities(s: Store, s': Store)
    requires |s.chats| <= |s'.chats| && s'.messages == s.messages
    requires s'.chats[..|s.chats|] == s.chats
    ensures KeepsIdentities(s, s')
  {
    forall j | 0 <= j < |s.chats|
      ensures s'.chats[j] == s.chats[j]
    {
      assert s'.chats[..|s.chats|][j] == s'.chats[j];
    }
  }

  /** Changing one chat without touching its identity keeps every
      identity. */
  lemma UpdateKeepsIdentities(s: Store, s': Store, id: ChatId)
    requires id < |s.chats| && OnlyChatChanged(s, s', id)
    requires SameIdentity(s.chats[id], s'.chats[id])
    ensures KeepsIdentities(s, s')
  {
  }

  /** The store after a run of requests, the k-th at time `times[k]`. */
  function Run(s: Store, reqs: seq<Request>, times: seq<Time>): Store
    requires |times| == |reqs|
    decreases |reqs|
  {
    if |reqs| == 0 then s else Run(Apply(s, reqs[0], times[0]), reqs[1..], times[1..])
  }

  /** No run of chat requests deletes a chat or a message, turns a direct
      chat into a group or back, or reassigns a main admin. */
  lemma {:induction false} RunKeepsIdentities(s: Store, reqs: seq<Request>, times: seq<Time>)
    requires |times| == |reqs|
    ensures KeepsIdentities(s, Run(s, reqs, times))
    decreases |reqs|
  {
    if |reqs| > 0 {
      var s1 := Apply(s, reqs[0], times[0]);
      ApplyKeepsIdentities(s, reqs[0], times[0]);
      RunKeepsIdentities(s1, reqs[1..], times[1..]);
    }
  }
}

=== FILE: client_chat.dfy ===
/** The chat page's message list and back button: each message bubble is
    styled by who sent it, and a bubble that continues the previous
    sender's run sits without a gap. */
module ChatPage {
  import opened Strings
  import opened Records

  datatype Side = Me | Other

  /** The class list of one bubble: its side and whether the `no-gap`
      class is set. */
  datatype Bubble = Bubble(side: Side, noGap: bool)

  /** The classes of the bubble at index `i` of a list of senders. */
  function BubbleAt(senders: seq<string>, i: nat): (b: Bubble)
    requires i < |senders|
    ensures b.side == Me <==> senders[i] == "me"
    ensures i == 0 ==> !b.noGap
    ensures i > 0 ==> (b.noGap <==> senders[i] == senders[i - 1])
  {
    Bubble(if senders[i] == "me" then Me else Other, i > 0 && senders[i] == senders[i - 1])
  }

  /** The rendered list: one bubble per message, in order. */
  method Bubbles(senders: seq<string>) returns (bs: seq<Bubble>)
    ensures |bs| == |senders|
    ensures forall i :: 0 <= i < |bs| ==> (bs[i].side == Me <==> senders[i] == "me")
    ensures |bs| > 0 ==> !bs[0].noGap
    ensures forall i :: 0 < i < |bs| ==> (bs[i].noGap <==> senders[i] == senders[i - 1])
  {
    bs := [];
    var i := 0;
    while i < |senders|
      invariant 0 <= i <= |senders|
      invariant |bs| == i
      invariant forall j :: 0 <= j < i ==> bs[j] == BubbleAt(senders, j)
    {
      bs := bs + [BubbleAt(senders, i)];
      i := i + 1;
    }
  }

  /** A bubble's classes depend only on the messages up to it: a newly
      arrived message never restyles the ones before it. */
  lemma AppendKeepsBubbles(senders: seq<string>, more: seq<string>, i: nat)
    requires i < |senders|
    ensures BubbleAt(senders + more, i) == BubbleAt(senders, i)
  {
  }

  /** The number of bubbles with a gap before them: the number of runs of
      consecutive messages by one sender. */
  function Gaps(senders: seq<string>): (n: nat)
    ensures n <= |senders|
    ensures |senders| > 0 ==> n >= 1
  {
    if |senders| == 0 then 0
    else Gaps(senders[..|senders| - 1]) + (if BubbleAt(senders, |senders| - 1).noGap then 0 else 1)
  }

  /** The positions whose bubble is rendered with a gap before it. */
  function GapIndices(senders: seq<string>): set<nat> {
    set i: nat | i < |senders| && !BubbleAt(senders, i).noGap
  }

  /** `Gaps` counts exactly the bubbles that lack the `no-gap` class. */
  lemma {:induction false} GapsCountGappedBubbles(senders: seq<string>)
    ensures Gaps(senders) == |GapIndices(senders)|
  {
    if |senders| > 0 {
      var n := |senders| - 1;
      var front := senders[..n];
      GapsCountGappedBubbles(front);
      assert forall i :: 0 <= i < n ==> BubbleAt(senders, i) == BubbleAt(front, i);
      if BubbleAt(senders, n).noGap {
        assert GapIndices(senders) == GapIndices(front);
      } else {
        assert GapIndices(senders) == GapIndices(front) + {n};
      }
    }
  }

  /** A conversation by one sender is a single run: only its first bubble
      has a gap. */
  lemma {:induction false} OneSenderOneRun(senders: seq<string>)
    requires |senders| > 0
    requires forall i :: 0 <= i < |senders| ==> senders[i] == senders[0]
    ensures Gaps(senders) == 1
  {
    if |senders| > 1 {
      var front := senders[..|senders| - 1];
      assert forall i :: 0 <= i < |front| ==> front[i] == front[0];
      OneSenderOneRun(front);
    }
  }

  /** Strictly alternating senders give every bubble a gap. */
  lemma {:induction false} AlternatingAllGaps(senders: seq<string>)
    requires forall i :: 0 < i < |senders| ==> senders[i] != senders[i - 1]
    ensures Gaps(senders) == |senders|
  {
    if |senders| > 0 {
      var front := senders[..|senders| - 1];
      assert forall i :: 0 <= i < |front| ==> front[i] == senders[i];
      AlternatingAllGaps(front);
    }
  }

  /** The back button: with a chat id in the route it returns to the
      section the pathname is in (`/chats` or `/group-chats`); without an
      id, or anywhere else, it does nothing. */
  function OnBack(id: Option<string>, pathname: string): (to: Option<string>)
    ensures Falsy(id) ==> to.None?
    ensures !Falsy(id) && StartsWith(pathname, "/chats") ==> to == Some("/chats")
    ensures !Falsy(id) && StartsWith(pathname, "/group-chats") ==> to == Some("/group-chats")
    ensures to.Some? ==> StartsWith(pathname, to.value)
    ensures !StartsWith(pathname, "/chats") && !StartsWith(pathname, "/group-chats") ==> to.None?
  {
    SectionsAreDisjoint(pathname);
    if Falsy(id) then None
    else if StartsWith(pathname, "/chats") then Some("/chats")
    else if StartsWith(pathname, "/group-chats") then Some("/group-chats")
    else None
  }

  /** The two sections never both claim a pathname. */
  lemma SectionsAreDisjoint(pathname: string)
    ensures !(StartsWith(pathname, "/chats") && StartsWith(pathname, "/group-chats"))
  {
    if StartsWith(pathname, "/chats") {
      assert pathname[1] == "/chats"[1] == 'c';
      assert "/group-chats"[1] == 'g';
    }
  }
}

=== FILE: client_chat_header.dfy ===
/** The pure logic of the chat header page: how user names are displayed,
    when a rename is sent, which admin controls are shown to whom, and the
    local copies of a chat the page patches after a successful request.
    Every local patch is checked against the server handler it mirrors. */
module ChatHeader {
  import opened Strings
  import opened Seqs
  import opened Records
  import ChatDirectory
  import MessageService

  // ---------------------------------------------------------------- names

  /** One part with its first character upper-cased. */
  function CapitalizeWord(w: string): (r: string)
    ensures |r| == |w|
    ensures |w| > 0 ==> r[0] == Upper(w[0])
    ensures forall i :: 1 <= i < |w| ==> r[i] == w[i]
  {
    if |w| == 0 then "" else [Upper(w[0])] + w[1..]
  }

  function CapitalizeAll(parts: seq<string>): (r: seq<string>)
    ensures |r| == |parts|
    ensures forall i :: 0 <= i < |parts| ==> r[i] == CapitalizeWord(parts[i])
  {
    if |parts| == 0 then [] else [CapitalizeWord(parts[0])] + CapitalizeAll(parts[1..])
  }

  /** Reference definition: upper-case every character that starts the
      string (when `atStart`) or follows a space, keep the others. */
  function CapitalizeFrom(t: string, atStart: bool): (r: string)
    ensures |r| == |t|
    ensures forall i {:trigger r[i]} :: 0 <= i < |t| ==>
      r[i] == (if (if i == 0 then atStart else t[i - 1] == ' ') then Upper(t[i]) else t[i])
  {
    if |t| == 0 then ""
    else
      var rest := CapitalizeFrom(t[1..], t[0] == ' ');
      assert forall i :: 1 <= i < |t| ==> t[1..][i - 1] == t[i];
      [if atStart then Upper(t[0]) else t[0]] + rest
  }

  /** On a single word the reference upper-cases just the first character. */
  lemma CapitalizeFromWord(w: string)
    requires ' ' !in w
    ensures CapitalizeFrom(w, true) == CapitalizeWord(w)
  {
    var r := CapitalizeFrom(w, true);
    var cw := CapitalizeWord(w);
    forall i | 0 <= i < |w|
      ensures r[i] == cw[i]
    {
      assert i > 0 ==> w[i - 1] != ' ';
    }
  }

  /** The reference splits at the first space into the capitalized first
      word, the space, and the reference on the rest. */
  lemma CapitalizeFromStep(t: string, k: nat)
    requires k < |t| && t[k] == ' ' && ' ' !in t[..k]
    ensures CapitalizeFrom(t, true) == CapitalizeWord(t[..k]) + [' '] + CapitalizeFrom(t[k + 1..], true)
  {
    var w := t[..k];
    var cw := CapitalizeWord(w);
    var rest := t[k + 1..];
    var back := CapitalizeFrom(rest, true);
    var front := cw + [' '];
    var lhs := front + back;
    assert |front| == k + 1;
    var rhs := CapitalizeFrom(t, true);
    forall i | 0 <= i < |t|
      ensures lhs[i] == rhs[i]
    {
      if i < k {
        assert lhs[i] == front[i] == cw[i] && w[i] == t[i];
        assert i > 0 ==> t[i - 1] == w[i - 1] != ' ';
      } else if i == k {
        assert lhs[i] == front[k] == ' ' == t[k] == Upper(t[k]);
        assert k > 0 ==> t[k - 1] == w[k - 1] != ' ';
      } else if i == k + 1 {
        assert lhs[i] == back[0] == Upper(rest[0]);
      } else {
        assert lhs[i] == back[i - k - 1];
        assert rest[i - k - 2] == t[i - 1] && rest[i - k - 1] == t[i];
      }
    }
    assert lhs == rhs;
  }

  /** Splitting at spaces, capitalizing each part and joining again is the
      character-wise reference definition. */
  lemma {:induction false} SplitCapitalizeJoin(t: string)
    ensures Join(CapitalizeAll(Split(t, ' ')), ' ') == CapitalizeFrom(t, true)
    decreases |t|
  {
    var k := IndexOf(t, ' ');
    var w := t[..k];
    if k == |t| {
      assert w == t;
      assert Split(t, ' ') == [t];
      assert CapitalizeAll([t]) == [CapitalizeWord(t)];
      CapitalizeFromWord(t);
    } else {
      var rest := t[k + 1..];
      assert Split(t, ' ') == [w] + Split(rest, ' ');
      assert CapitalizeAll(Split(t, ' ')) == [CapitalizeWord(w)] + CapitalizeAll(Split(rest, ' '));
      SplitCapitalizeJoin(rest);
      CapitalizeFromStep(t, k);
    }
  }

  /** Upper-casing after spaces keeps a trimmed string trimmed. */
  lemma CapitalizeFromTrimmed(t: string)
    requires Trimmed(t)
    ensures Trimmed(CapitalizeFrom(t, true))
  {
    if |t| > 0 {
      var r := CapitalizeFrom(t, true);
      var n := |t| - 1;
      assert r[0] == Upper(t[0]);
      assert r[n] == (if n == 0 || t[n - 1] == ' ' then Upper(t[n]) else t[n]);
      CaseKeepsWhitespace(t[0]);
      CaseKeepsWhitespace(t[n]);
    }
  }

  /** `capitalize`: a non-string gives the empty string; otherwise the
      trimmed name with the first character and every character after a
      space upper-cased, nothing else changed. */
  function Capitalize(fullName: Option<string>): (r: string)
    ensures fullName.None? ==> r == ""
    ensures fullName.Some? ==> var t := Trim(fullName.value);
      && |r| == |t|
      && forall i {:trigger r[i]} :: 0 <= i < |t| ==>
           r[i] == (if i == 0 || t[i - 1] == ' ' then Upper(t[i]) else t[i])
  {
    if fullName.None? then ""
    else
      var t := Trim(fullName.value);
      var joined := Join(CapitalizeAll(Split(t, ' ')), ' ');
      SplitCapitalizeJoin(t);
      CapitalizeFromTrimmed(t);
      Trim(joined)
  }

  /** Positions holding `c` in one string hold it in the other. */
  lemma {:induction false} CountSamePositions(a: string, b: string, c: char)
    requires |a| == |b|
    requires forall i :: 0 <= i < |a| ==> (a[i] == c <==> b[i] == c)
    ensures Count(a, c) == Count(b, c)
  {
    if |a| > 0 {
      CountSamePositions(a[1..], b[1..], c);
    }
  }

  /** The display form agrees with the character-wise reference. */
  lemma CapitalizeIsReference(name: string)
    ensures Capitalize(Some(name)) == CapitalizeFrom(Trim(name), true)
  {
    var t := Trim(name);
    var r := Capitalize(Some(name));
    var c := CapitalizeFrom(t, true);
    forall i | 0 <= i < |t|
      ensures r[i] == c[i]
    {
    }
    assert r == c;
  }

  /** `capitalize` keeps the number of space-separated parts of the trimmed
      name and changes nothing but letter case. */
  lemma CapitalizeKeepsParts(name: string)
    ensures var t := Trim(name);
      var r := Capitalize(Some(name));
      && |Split(r, ' ')| == |Split(t, ' ')|
      && LowerString(r) == LowerString(t)
  {
    var t := Trim(name);
    CapitalizeIsReference(name);
    var r := CapitalizeFrom(t, true);
    forall i | 0 <= i < |t|
      ensures (r[i] == ' ' <==> t[i] == ' ') && Lower(r[i]) == Lower(t[i])
    {
      CaseKeepsWhitespace(t[i]);
      LowerForgetsCase(t[i]);
    }
    CaseOnlyDiffers(r, t);
  }

  /** Two strings that differ only in letter case, with their spaces in the
      same places, split into as many parts and lower-case alike. */
  lemma CaseOnlyDiffers(a: string, b: string)
    requires |a| == |b|
    requires forall i :: 0 <= i < |a| ==> (a[i] == ' ' <==> b[i] == ' ') && Lower(a[i]) == Lower(b[i])
    ensures |Split(a, ' ')| == |Split(b, ' ')|
    ensures LowerString(a) == LowerString(b)
  {
    CountSamePositions(a, b, ' ');
    SplitCount(a, ' ');
    SplitCount(b, ' ');
    assert LowerString(a) == LowerString(b);
  }

  /** A capitalized name is displayed as it is when capitalized again. */
  lemma CapitalizeIdempotent(name: string)
    ensures var r := Capitalize(Some(name));
      Capitalize(Some(r)) == r
  {
    var t := Trim(name);
    var r := Capitalize(Some(name));
    assert r == CapitalizeFrom(t, true) && Trimmed(r) by {
      CapitalizeIsReference(name);
      CapitalizeFromTrimmed(t);
    }
    assert Capitalize(Some(r)) == CapitalizeFrom(r, true) by {
      CapitalizeIsReference(r);
    }
    CapitalizeFromTwice(t);
  }

  /** The reference definition applied twice is applied once. */
  lemma CapitalizeFromTwice(t: string)
    ensures CapitalizeFrom(CapitalizeFrom(t, true), true) == CapitalizeFrom(t, true)
  {
    var r := CapitalizeFrom(t, true);
    var r2 := CapitalizeFrom(r, true);
    forall i | 0 <= i < |r|
      ensures r2[i] == r[i]
    {
      CaseKeepsWhitespace(t[i]);
      UpperForgetsCase(t[i]);
      if i > 0 {
        CaseKeepsWhitespace(t[i - 1]);
      }
    }
  }

  /** One part with the first character upper-cased and the rest
      lower-cased. */
  function CapitalizeLower(w: string): (r: string)
    ensures |r| == |w|
    ensures |w| > 0 ==> r[0] == Upper(w[0])
    ensures forall i :: 1 <= i < |w| ==> r[i] == Lower(w[i])
  {
    if |w| == 0 then "" else [Upper(w[0])] + LowerString(w[1..])
  }

  /** Case-normalizing keeps a string that starts and ends visibly so, and
      puts no space where there was none. */
  lemma CapitalizeLowerShape(w: string)
    ensures Trimmed(w) ==> Trimmed(CapitalizeLower(w))
    ensures ' ' !in w ==> ' ' !in CapitalizeLower(w)
  {
    var r := CapitalizeLower(w);
    forall i | 0 <= i < |w|
      ensures IsWhitespace(r[i]) <==> IsWhitespace(w[i])
      ensures r[i] == ' ' <==> w[i] == ' '
    {
      CaseKeepsWhitespace(w[i]);
    }
  }

  /** In a trimmed name with a space, the first and the last word are not
      empty. */
  lemma FirstLastNonEmpty(t: string)
    requires Trimmed(t) && ' ' in t
    ensures 0 < IndexOf(t, ' ') && LastIndexOf(t, ' ') + 1 < |t|
  {
    assert !IsWhitespace(t[0]) && !IsWhitespace(t[|t| - 1]);
    var j :| 0 <= j < |t| && t[j] == ' ';
    assert IndexOf(t, ' ') <= j <= LastIndexOf(t, ' ');
  }

  /** The first and the last word of a trimmed name, case-normalized and
      joined by one space: a string `trim` leaves alone. */
  function FirstLast(t: string): (r: string)
    requires Trimmed(t) && ' ' in t
    ensures Trimmed(r)
  {
    var first := t[..IndexOf(t, ' ')];
    var last := t[LastIndexOf(t, ' ') + 1..];
    assert first != [] && last != [] && !IsWhitespace(first[0]) && !IsWhitespace(last[|last| - 1]) by {
      FirstLastNonEmpty(t);
    }
    NormalizedPairTrimmed(first, last);
    CapitalizeLower(first) + " " + CapitalizeLower(last)
  }

  /** Two words that start and end visibly, normalized and joined by a
      space, also do. */
  lemma NormalizedPairTrimmed(first: string, last: string)
    requires first != [] && last != []
    requires !IsWhitespace(first[0]) && !IsWhitespace(last[|last| - 1])
    ensures Trimmed(CapitalizeLower(first) + " " + CapitalizeLower(last))
  {
    var r := CapitalizeLower(first) + " " + CapitalizeLower(last);
    CaseKeepsWhitespace(first[0]);
    CaseKeepsWhitespace(last[|last| - 1]);
    assert r[0] == CapitalizeLower(first)[0];
    assert r[|r| - 1] == CapitalizeLower(last)[|last| - 1];
  }

  /** A name without a space is a single part. */
  lemma SinglePart(t: string)
    requires ' ' !in t
    ensures Split(t, ' ') == [t]
  {
    SplitSingle(t, ' ');
    SplitFirst(t, ' ');
    assert t[..IndexOf(t, ' ')] == t;
  }

  /** A name with a space has at least two parts, the first and the last
      word outermost. */
  lemma NameParts(t: string)
    requires ' ' in t
    ensures var parts := Split(t, ' ');
      && |parts| >= 2
      && parts[0] == t[..IndexOf(t, ' ')]
      && parts[|parts| - 1] == t[LastIndexOf(t, ' ') + 1..]
  {
    SplitSingle(t, ' ');
    SplitFirst(t, ' ');
    SplitLast(t, ' ');
  }

  /** The display of a name with a space, in terms of its split parts. */
  lemma FirstLastOfParts(t: string)
    requires Trimmed(t) && ' ' in t
    ensures var parts := Split(t, ' ');
      FirstLast(t) == CapitalizeLower(parts[0]) + " " + CapitalizeLower(parts[|parts| - 1])
    ensures var parts := Split(t, ' ');
      Trim(CapitalizeLower(parts[0]) + " " + CapitalizeLower(parts[|parts| - 1])) == FirstLast(t)
  {
    NameParts(t);
    var parts := Split(t, ' ');
    var a := CapitalizeLower(parts[0]);
    var b := CapitalizeLower(parts[|parts| - 1]);
    assert a == CapitalizeLower(t[..IndexOf(t, ' ')]);
    assert b == CapitalizeLower(t[LastIndexOf(t, ' ') + 1..]);
    assert FirstLast(t) == a + " " + b;
    assert Trimmed(a + " " + b);
  }

  /** `capitalizeFirstLast`: split the trimmed name at spaces; one part is
      case-normalized; otherwise only the first and the last part are,
      joined by a space, and the result trimmed. */
  function CapitalizeFirstLast(fullName: Option<string>): (r: string)
    ensures fullName.None? ==> r == ""
    ensures fullName.Some? && ' ' !in Trim(fullName.value) ==>
      r == CapitalizeLower(Trim(fullName.value))
    ensures fullName.Some? && ' ' in Trim(fullName.value) ==>
      r == FirstLast(Trim(fullName.value))
    ensures Trimmed(r)
  {
    if fullName.None? then ""
    else
      var t := Trim(fullName.value);
      DisplayOfParts(t);
      FromParts(Split(t, ' '))
  }

  /** The display built from the split parts of a trimmed name. */
  function FromParts(parts: seq<string>): string
    requires |parts| >= 1
  {
    if |parts| == 1 then CapitalizeLower(parts[0])
    else Trim(CapitalizeLower(parts[0]) + " " + CapitalizeLower(parts[|parts| - 1]))
  }

  /** The display from the parts of a trimmed name: the normalized name
      when it has no space, its first-last form otherwise. */
  lemma DisplayOfParts(t: string)
    requires Trimmed(t)
    ensures ' ' !in t ==> FromParts(Split(t, ' ')) == CapitalizeLower(t)
    ensures ' ' in t ==> FromParts(Split(t, ' ')) == FirstLast(t)
    ensures Trimmed(FromParts(Split(t, ' ')))
  {
    var parts := Split(t, ' ');
    if ' ' !in t {
      assert parts == [t] by {
        SinglePart(t);
      }
      assert Trimmed(CapitalizeLower(t)) by {
        CapitalizeLowerShape(t);
      }
    } else {
      assert |parts| != 1 by {
        SplitSingle(t, ' ');
      }
      FirstLastOfParts(t);
    }
  }

  /** Two space-free words joined by one space: the space is the first
      and the last one, and splitting gives the two words back. */
  lemma TwoWords(a: string, b: string)
    requires ' ' !in a && ' ' !in b
    ensures var r := a + " " + b;
      && IndexOf(r, ' ') == |a| && LastIndexOf(r, ' ') == |a|
      && r[..|a|] == a && r[|a| + 1..] == b
      && Split(r, ' ') == [a, b]
  {
    var r := a + " " + b;
    assert r == a + [' '] + b;
    IndexOfAfterFree(a, ' ', b);
    LastIndexUnique(r, ' ', |a|);
    assert r[..|a|] == a && r[|a| + 1..] == b;
    SplitJoin([a, b], ' ');
    assert Join([a, b], ' ') == r;
  }

  /** The first-last display of two words normalizes each of them. */
  lemma FirstLastOfTwoWords(a: string, b: string)
    requires ' ' !in a && ' ' !in b && Trimmed(a + " " + b)
    ensures ' ' in a + " " + b
    ensures FirstLast(a + " " + b) == CapitalizeLower(a) + " " + CapitalizeLower(b)
  {
    var r := a + " " + b;
    TwoWords(a, b);
    assert r[|a|] == ' ';
  }

  /** A single word displays as itself once normalized. */
  lemma SingleWordStable(t: string)
    requires Trimmed(t) && ' ' !in t
    ensures var r := CapitalizeLower(t);
      Trimmed(r) && ' ' !in r && CapitalizeLower(r) == r
  {
    CapitalizeLowerShape(t);
    NormalizeTwice(t);
  }

  /** A first-last display is two words and displays as itself. */
  lemma FirstLastStable(t: string)
    requires Trimmed(t) && ' ' in t
    ensures var r := FirstLast(t);
      ' ' in r && |Split(r, ' ')| == 2 && FirstLast(r) == r
  {
    var a, b := NormalWords(t);
    NormalTwoWordsStable(a, b);
  }

  /** The two words of a first-last display: space-free and normalized. */
  lemma NormalWords(t: string) returns (a: string, b: string)
    requires Trimmed(t) && ' ' in t
    ensures FirstLast(t) == a + " " + b
    ensures ' ' !in a && ' ' !in b
    ensures CapitalizeLower(a) == a && CapitalizeLower(b) == b
  {
    FirstLastWords(t);
    a, b := NormalPair(FirstWord(t), LastWord(t));
  }

  /** The text before the first space. */
  function FirstWord(t: string): string
    requires ' ' in t
  {
    t[..IndexOf(t, ' ')]
  }

  /** The text after the last space. */
  function LastWord(t: string): string
    requires ' ' in t
  {
    t[LastIndexOf(t, ' ') + 1..]
  }

  /** FirstLast in terms of the outer words, which hold no space. */
  lemma FirstLastWords(t: string)
    requires Trimmed(t) && ' ' in t
    ensures FirstLast(t) == CapitalizeLower(FirstWord(t)) + " " + CapitalizeLower(LastWord(t))
    ensures ' ' !in FirstWord(t) && ' ' !in LastWord(t)
  {
  }

  /** Both words of a pair, normalized: space-free and left alone by a
      second normalization. */
  lemma NormalPair(f: string, l: string) returns (a: string, b: string)
    requires ' ' !in f && ' ' !in l
    ensures a == CapitalizeLower(f) && b == CapitalizeLower(l)
    ensures ' ' !in a && ' ' !in b
    ensures CapitalizeLower(a) == a && CapitalizeLower(b) == b
  {
    a := CapitalizeLower(f);
    b := CapitalizeLower(l);
    NormalWord(f);
    NormalWord(l);
  }

  /** A space-free word normalizes to a space-free word that normalizing
      leaves alone. */
  lemma NormalWord(w: string)
    requires ' ' !in w
    ensures ' ' !in CapitalizeLower(w)
    ensures CapitalizeLower(CapitalizeLower(w)) == CapitalizeLower(w)
  {
    CapitalizeLowerShape(w);
    NormalizeTwice(w);
  }

  /** Two normalized space-free words joined by a space display as
      themselves. */
  lemma NormalTwoWordsStable(a: string, b: string)
    requires ' ' !in a && ' ' !in b && Trimmed(a + " " + b)
    requires CapitalizeLower(a) == a && CapitalizeLower(b) == b
    ensures ' ' in a + " " + b && |Split(a + " " + b, ' ')| == 2
    ensures FirstLast(a + " " + b) == a + " " + b
  {
    TwoWords(a, b);
    FirstLastOfTwoWords(a, b);
  }

  /** A displayed first-last name has at most two parts, and displaying it
      again changes nothing. */
  lemma CapitalizeFirstLastIdempotent(name: string)
    ensures var r := CapitalizeFirstLast(Some(name));
      && |Split(r, ' ')| <= 2
      && CapitalizeFirstLast(Some(r)) == r
  {
    var t := Trim(name);
    var r := CapitalizeFirstLast(Some(name));
    if ' ' !in t {
      assert r == CapitalizeLower(t);
      assert Trimmed(r) && ' ' !in r && CapitalizeLower(r) == r by {
        SingleWordStable(t);
      }
      assert |Split(r, ' ')| == 1 by {
        SplitSingle(r, ' ');
      }
    } else {
      assert r == FirstLast(t);
      FirstLastStable(t);
    }
  }

  /** Case-normalizing twice is case-normalizing once. */
  lemma NormalizeTwice(w: string)
    ensures CapitalizeLower(CapitalizeLower(w)) == CapitalizeLower(w)
  {
    var r := CapitalizeLower(w);
    forall i | 0 <= i < |w|
      ensures CapitalizeLower(r)[i] == r[i]
    {
      UpperForgetsCase(w[i]);
      LowerForgetsCase(w[i]);
    }
  }

  // ---------------------------------------------------------------- rename

  datatype RenameStep = HideInput | SendRename(newName: string)

  /** `confirmChangeName` on Enter: the trimmed input is sent unless it is
      empty or equal to the current name, in which case the input is only
      hidden. */
  function ConfirmRename(input: string, current: string): (r: RenameStep)
    ensures r.HideInput? <==> Trim(input) == "" || Trim(input) == current
    ensures r.SendRename? ==>
      && r.newName == Trim(input) && Trimmed(r.newName)
      && r.newName != "" && r.newName != current
  {
    var newName := Trim(input);
    if newName == "" || newName == current then HideInput else SendRename(newName)
  }

  /** Re-entering a stored group name, padded or not, sends nothing: the
      server stores names trimmed. */
  lemma RenameToSameNameIsSkipped(s: Store, chatId: ChatId, pad: string)
    requires chatId < |s.chats| && Trimmed(s.chats[chatId].chatName)
    requires forall i :: 0 <= i < |pad| ==> IsWhitespace(pad[i])
    ensures ConfirmRename(pad + s.chats[chatId].chatName + pad, s.chats[chatId].chatName) == HideInput
  {
    TrimPadding(pad, s.chats[chatId].chatName, pad);
  }

  /** A rename that is sent is stored exactly as sent, and the page's local
      copy then agrees with the stored chat up to the update time. */
  lemma SentRenameIsStored(s: Store, chatId: ChatId, input: string, now: Time)
    requires chatId < |s.chats|
    requires ConfirmRename(input, s.chats[chatId].chatName).SendRename?
    ensures var name := ConfirmRename(input, s.chats[chatId].chatName).newName;
      var r := ChatDirectory.RenameGroup(s, chatId, name, now);
      && r.Done? && r.value.chatName == name
      && LocalRename(s.chats[chatId], name) == r.value.(updatedAt := s.chats[chatId].updatedAt)
  {
  }

  // ---------------------------------------------------------------- admin controls

  /** Whether the page shows the rename, picture and add-user controls:
      the viewer is the main admin or one of the group admins. */
  function ShowsAdminControls(info: Chat, viewer: UserId): (shown: bool)
    ensures info.mainAdmin == Some(viewer) ==> shown
    ensures forall k :: 0 <= k < |info.groupAdmins| && info.groupAdmins[k] == viewer ==> shown
    ensures shown ==> info.mainAdmin == Some(viewer) || exists k :: 0 <= k < |info.groupAdmins| && info.groupAdmins[k] == viewer
  {
    info.mainAdmin == Some(viewer) || viewer in info.groupAdmins
  }

  datatype AdminToggle = OfferSetAdmin | OfferRemoveAdmin

  /** The controls next to one member: none, or an admin toggle together
      with a remove-user button. */
  datatype MemberControls = NoControls | Controls(toggle: AdminToggle)

  /** The per-member controls of a group chat's member list. The page
      dereferences the main admin here, so a group without one is outside
      its reach. */
  function ControlsFor(info: Chat, viewer: UserId, member: UserId): (r: MemberControls)
    requires info.mainAdmin.Some?
    ensures member == viewer || Some(member) == info.mainAdmin ==> r == NoControls
    ensures !ShowsAdminControls(info, viewer) ==> r == NoControls
    ensures r.Controls? <==>
      ShowsAdminControls(info, viewer) && member != viewer && Some(member) != info.mainAdmin
    ensures r.Controls? ==> (r.toggle == OfferRemoveAdmin <==> member in info.groupAdmins)
  {
    if ShowsAdminControls(info, viewer) && member != viewer && member != info.mainAdmin.value then
      Controls(if member in info.groupAdmins then OfferRemoveAdmin else OfferSetAdmin)
    else NoControls
  }

  /** Whenever the page offers a control on a member of the stored chat,
      the server accepts the request it sends. */
  lemma OfferedControlsAreAccepted(s: Store, chatId: ChatId, viewer: UserId, member: UserId, now: Time)
    requires chatId < |s.chats| && s.chats[chatId].mainAdmin.Some?
    requires member in s.chats[chatId].users
    requires ControlsFor(s.chats[chatId], viewer, member).Controls?
    ensures var t := ControlsFor(s.chats[chatId], viewer, member).toggle;
      && (t == OfferSetAdmin ==> ChatDirectory.SetAdmin(s, chatId, member, now).Done?)
      && (t == OfferRemoveAdmin ==> ChatDirectory.RemoveAdmin(s, chatId, member, now).Done?)
      && ChatDirectory.RemoveFromGroup(s, chatId, member, now).Done?
  {
  }

  /** The admin controls follow the server's roles: a user the server has
      just promoted sees them, and a user it has just demoted does not. */
  lemma AdminControlsFollowServerRoles(s: Store, chatId: ChatId, u: UserId, now: Time)
    requires chatId < |s.chats|
    ensures var promote := ChatDirectory.SetAdmin(s, chatId, u, now);
      promote.Done? ==> ShowsAdminControls(promote.value, u)
    ensures var demote := ChatDirectory.RemoveAdmin(s, chatId, u, now);
      demote.Done? ==> !ShowsAdminControls(demote.value, u)
  {
  }

  /** The "Add" button beside a search result. */
  function OffersAdd(info: Chat, candidate: UserId): (offered: bool)
    ensures offered <==> forall k :: 0 <= k < |info.users| ==> info.users[k] != candidate
  {
    candidate !in info.users
  }

  /** "Add" is offered exactly for the users the server would add. */
  lemma AddOfferedIffAccepted(s: Store, chatId: ChatId, candidate: UserId, now: Time)
    requires chatId < |s.chats|
    ensures OffersAdd(s.chats[chatId], candidate) <==>
      ChatDirectory.AddToGroup(s, chatId, candidate, now).Done?
  {
  }

  // ---------------------------------------------------------------- local updates

  /** The page's `setChatInfo` after a successful renameGroup. */
  function LocalRename(info: Chat, name: string): (r: Chat)
    ensures r.chatName == name
    ensures r.users == info.users && r.groupAdmins == info.groupAdmins
    ensures r == info.(chatName := r.chatName)
  {
    info.(chatName := name)
  }

  /** The page's `users: [...prevInfo.users, user]` after a successful
      addToGroup. */
  function LocalAddUser(info: Chat, u: UserId): (r: Chat)
    ensures u in r.users
    ensures multiset(r.users) == multiset(info.users) + multiset{u}
    ensures |r.users| == |info.users| + 1 && r.users[..|info.users|] == info.users
    ensures r.groupAdmins == info.groupAdmins && r == info.(users := r.users)
  {
    var r := info.(users := info.users + [u]);
    assert r.users[..|info.users|] == info.users;
    r
  }

  /** The page's `groupAdmins: [...prevInfo.groupAdmins, user]` after a
      successful setAdmin. */
  function LocalSetAdmin(info: Chat, u: UserId): (r: Chat)
    ensures u in r.groupAdmins
    ensures multiset(r.groupAdmins) == multiset(info.groupAdmins) + multiset{u}
    ensures |r.groupAdmins| == |info.groupAdmins| + 1 && r.groupAdmins[..|info.groupAdmins|] == info.groupAdmins
    ensures r.users == info.users && r == info.(groupAdmins := r.groupAdmins)
  {
    var r := info.(groupAdmins := info.groupAdmins + [u]);
    assert r.groupAdmins[..|info.groupAdmins|] == info.groupAdmins;
    r
  }

  /** Adding a user who was not a member and then removing them restores
      the page's copy; likewise for promoting and demoting a non-admin. */
  lemma LocalAddThenRemove(info: Chat, u: UserId)
    ensures u !in info.users ==> LocalRemoveUser(LocalAddUser(info, u), u) == info
    ensures u !in info.groupAdmins ==> LocalRemoveAdmin(LocalSetAdmin(info, u), u) == info
  {
    if u !in info.users {
      PushThenRemove(info.users, u);
    }
    if u !in info.groupAdmins {
      PushThenRemove(info.groupAdmins, u);
    }
  }

  /** The page's `groupAdmins.filter` after a successful removeAdmin. */
  function LocalRemoveAdmin(info: Chat, u: UserId): (r: Chat)
    ensures u !in r.groupAdmins
    ensures forall v :: v != u ==> multiset(r.groupAdmins)[v] == multiset(info.groupAdmins)[v]
    ensures r.users == info.users && r == info.(groupAdmins := r.groupAdmins)
  {
    info.(groupAdmins := RemoveAll(info.groupAdmins, u))
  }

  /** The page's `users.filter` after a successful removeUser. */
  function LocalRemoveUser(info: Chat, u: UserId): (r: Chat)
    ensures u !in r.users
    ensures forall v :: v != u ==> multiset(r.users)[v] == multiset(info.users)[v]
    ensures r.groupAdmins == info.groupAdmins && r == info.(users := r.users)
  {
    info.(users := RemoveAll(info.users, u))
  }

  /** Each local patch, applied to a copy of the stored chat after the
      server accepted the request, yields the chat the server stored, up
      to the update time the page does not track. */
  lemma LocalUpdatesAgree(s: Store, chatId: ChatId, u: UserId, now: Time)
    requires chatId < |s.chats|
    ensures var c := s.chats[chatId];
      var add := ChatDirectory.AddToGroup(s, chatId, u, now);
      var promote := ChatDirectory.SetAdmin(s, chatId, u, now);
      var demote := ChatDirectory.RemoveAdmin(s, chatId, u, now);
      var remove := ChatDirectory.RemoveFromGroup(s, chatId, u, now);
      && (add.Done? ==> LocalAddUser(c, u) == add.value.(updatedAt := c.updatedAt))
      && (promote.Done? ==> LocalSetAdmin(c, u) == promote.value.(updatedAt := c.updatedAt))
      && (demote.Done? ==> LocalRemoveAdmin(c, u) == demote.value.(updatedAt := c.updatedAt))
      && (remove.Done? ==> LocalRemoveUser(c, u) == remove.value.(updatedAt := c.updatedAt))
  {
  }

  /** A chat in the page's chat list, with its store id. */
  datatype Entry = Entry(id: ChatId, chat: Chat)

  /** `chats.map(chat => chat._id === id ? f(chat) : chat)`. */
  function Patch(entries: seq<Entry>, id: ChatId, f: Chat -> Chat): (r: seq<Entry>)
    ensures |r| == |entries|
    ensures forall k :: 0 <= k < |r| ==> r[k].id == entries[k].id
    ensures forall k :: 0 <= k < |r| && entries[k].id != id ==> r[k] == entries[k]
    ensures forall k :: 0 <= k < |r| && entries[k].id == id ==> r[k].chat == f(entries[k].chat)
  {
    if |entries| == 0 then []
    else
      var e := entries[0];
      [if e.id == id then Entry(id, f(e.chat)) else e] + Patch(entries[1..], id, f)
  }

  /** The page's view after an attachment upload returned message `m`: the
      message log gains `m` at the end, the chat list entry for `id` gets it
      as latest message. */
  function AfterAttachment(log: seq<MessageId>, entries: seq<Entry>, id: ChatId, m: MessageId)
    : (r: (seq<MessageId>, seq<Entry>))
    ensures r.0 == log + [m]
    ensures |r.1| == |entries|
    ensures forall k :: 0 <= k < |entries| ==>
      r.1[k] == (if entries[k].id == id then Entry(id, entries[k].chat.(latestMessage := Some(m)))
                 else entries[k])
  {
    (log + [m], Patch(entries, id, (c: Chat) => c.(latestMessage := Some(m))))
  }

  /** Repeating the page update for the same message changes only the log. */
  lemma AfterAttachmentRepeat(log: seq<MessageId>, entries: seq<Entry>, id: ChatId, m: MessageId)
    ensures var once := AfterAttachment(log, entries, id, m);
      AfterAttachment(log, once.1, id, m).1 == once.1
  {
  }

  /** A page view mirrors the store: every entry is a copy of its stored
      chat and the log lists the open chat's messages. */
  predicate Mirrors(s: Store, log: seq<MessageId>, entries: seq<Entry>, open: ChatId) {
    && log == MessageService.GetMessages(s, open)
    && EntriesMirror(s, entries)
  }

  /** Every entry of the page's chat list is a copy of its stored chat. */
  predicate EntriesMirror(s: Store, entries: seq<Entry>) {
    forall k :: 0 <= k < |entries| ==>
      entries[k].id < |s.chats| && entries[k].chat == s.chats[entries[k].id]
  }

  /** After a successful upload the patched page view lists what the store
      lists, and every entry agrees with its stored chat up to the update
      time the page does not track. */
  lemma AttachmentViewAgrees(s: Store, requester: UserId, open: ChatId, file: MessageService.Upload,
                             now: Time, log: seq<MessageId>, entries: seq<Entry>)
    requires Mirrors(s, log, entries, open)
    ensures var r := MessageService.SendAttachmentMessage(s, requester, Some(open), Some(file), true, now);
      var view := AfterAttachment(log, entries, open, r.value);
      && r.Done?
      && view.0 == MessageService.GetMessages(r.store, open)
      && forall k :: 0 <= k < |entries| ==>
           view.1[k].chat == r.store.chats[entries[k].id].(updatedAt := entries[k].chat.updatedAt)
  {
    var r := MessageService.SendAttachmentMessage(s, requester, Some(open), Some(file), true, now);
    var m := r.store.messages[|s.messages|];
    assert r.store.messages == s.messages + [m];
    MessageService.MessagesOfAppend(s.messages, m, open, 0);
  }

  /** After a rename the server accepted, the page's patched chat list
      (`chats.map` renaming the open chat's entries) agrees with the store
      up to the update time the page does not track. */
  lemma RenamedListAgrees(s: Store, chatId: ChatId, input: string, now: Time, entries: seq<Entry>)
    requires chatId < |s.chats|
    requires ConfirmRename(input, s.chats[chatId].chatName).SendRename?
    requires EntriesMirror(s, entries)
    ensures var name := ConfirmRename(input, s.chats[chatId].chatName).newName;
      var r := ChatDirectory.RenameGroup(s, chatId, name, now);
      var list := Patch(entries, chatId, (c: Chat) => c.(chatName := name));
      && r.Done?
      && |list| == |entries|
      && forall k :: 0 <= k < |entries| ==>
           list[k].id == entries[k].id &&
           list[k].chat == r.store.chats[entries[k].id].(updatedAt := entries[k].chat.updatedAt)
  {
    SentRenameIsStored(s, chatId, input, now);
  }
}

=== FILE: client_chats.dfy ===
/** The chat list page: the search box filters the cards by name without
    regard to case, the links point into the section the pathname is in,
    and the card of the chat named by the route is highlighted. */
module ChatsPage {
  import opened Strings
  import opened Records

  /** A card of the list: the chat's numeric id and its display name. */
  datatype Card = Card(id: int, name: string)

  /** A card matches a term when its lower-cased name includes the
      lower-cased term. */
  function Matches(c: Card, term: string): (m: bool)
    ensures term == "" ==> m
    ensures m ==> |term| <= |c.name|
    ensures LowerString(term) == LowerString(c.name) ==> m
  {
    var name, t := LowerString(c.name), LowerString(term);
    if term == "" then ContainsEmpty(name); true
    else
      assert t == name ==> StartsWith(name, t);
      if Contains(name, t) then ContainsNoLonger(name, t); true else false
  }

  /** `cards.filter(chat => Matches(chat, term))`. */
  function Keep(cards: seq<Card>, term: string): (r: seq<Card>)
    ensures |r| <= |cards|
    ensures forall c :: c in r <==> c in cards && Matches(c, term)
  {
    if |cards| == 0 then []
    else (if Matches(cards[0], term) then [cards[0]] else []) + Keep(cards[1..], term)
  }

  /** Filtering works card by card, so the kept cards stay in list order. */
  lemma {:induction false} KeepAppend(a: seq<Card>, b: seq<Card>, term: string)
    ensures Keep(a + b, term) == Keep(a, term) + Keep(b, term)
  {
    if |a| == 0 {
      assert a + b == b;
    } else {
      assert (a + b)[1..] == a[1..] + b;
      KeepAppend(a[1..], b, term);
    }
  }

  /** The search effect: an empty term shows every card; any other term
      shows exactly the cards whose name includes it, ignoring case. */
  function FilterChats(cards: seq<Card>, term: string): (r: seq<Card>)
    ensures term == "" ==> r == cards
    ensures forall c :: c in r <==> c in cards && Matches(c, term)
  {
    if term == "" then
      forall c | c in cards
        ensures Matches(c, term)
      {
        ContainsEmpty(LowerString(c.name));
      }
      cards
    else Keep(cards, term)
  }

  /** The empty-term shortcut agrees with filtering by the empty term. */
  lemma {:induction false} EmptyTermKeepsAll(cards: seq<Card>)
    ensures Keep(cards, "") == cards
  {
    if |cards| > 0 {
      ContainsEmpty(LowerString(cards[0].name));
      EmptyTermKeepsAll(cards[1..]);
    }
  }

  /** Two terms equal up to letter case select the same cards. */
  lemma {:induction false} KeepIgnoresTermCase(cards: seq<Card>, t1: string, t2: string)
    requires LowerString(t1) == LowerString(t2)
    ensures Keep(cards, t1) == Keep(cards, t2)
  {
    if |cards| > 0 {
      KeepIgnoresTermCase(cards[1..], t1, t2);
    }
  }

  /** The list shown does not depend on the case the term is typed in. */
  lemma FilterIgnoresTermCase(cards: seq<Card>, term: string)
    ensures FilterChats(cards, UpperString(term)) == FilterChats(cards, term)
    ensures FilterChats(cards, LowerString(term)) == FilterChats(cards, term)
  {
    forall i | 0 <= i < |term|
      ensures Lower(Upper(term[i])) == Lower(term[i]) && Lower(Lower(term[i])) == Lower(term[i])
    {
      LowerForgetsCase(term[i]);
    }
    assert LowerString(UpperString(term)) == LowerString(term);
    assert LowerString(LowerString(term)) == LowerString(term);
    KeepIgnoresTermCase(cards, UpperString(term), term);
    KeepIgnoresTermCase(cards, LowerString(term), term);
  }

  lemma {:induction false} LowerStringAppend(a: string, b: string)
    ensures LowerString(a + b) == LowerString(a) + LowerString(b)
  {
    assert forall i :: 0 <= i < |a + b| ==> LowerString(a + b)[i] == Lower((a + b)[i]);
  }

  /** Typing more characters only narrows the list. */
  lemma TypingNarrows(cards: seq<Card>, term: string, more: string)
    ensures forall c :: c in FilterChats(cards, term + more) ==> c in FilterChats(cards, term)
  {
    LowerStringAppend(term, more);
    forall c | c in FilterChats(cards, term + more)
      ensures c in FilterChats(cards, term)
    {
      ContainsInfix(LowerString(c.name), LowerString(term + more), "", LowerString(term), LowerString(more));
    }
  }

  // ---------------------------------------------------------------- links

  /** `"group-chats"` contains `"chats"`. */
  lemma GroupChatsContainsChats(pathname: string)
    ensures Contains(pathname, "group-chats") ==> Contains(pathname, "chats")
  {
    if Contains(pathname, "group-chats") {
      ContainsInfix(pathname, "group-chats", "group-", "chats", "");
    }
  }

  /** The path effect: the section the card links point into. It is
      `group-chats` when the pathname mentions it, else `chats` when the
      pathname mentions that, else it keeps its previous value. */
  function SelectPath(pathname: string, prev: string): (path: string)
    ensures Contains(pathname, "group-chats") ==> path == "group-chats"
    ensures !Contains(pathname, "group-chats") && Contains(pathname, "chats") ==> path == "chats"
    ensures !Contains(pathname, "chats") ==> path == prev
  {
    GroupChatsContainsChats(pathname);
    if Contains(pathname, "group-chats") then "group-chats"
    else if Contains(pathname, "chats") then "chats"
    else prev
  }

  /** Inside either section the links point back into that section. */
  lemma PathFollowsSection(rest: string, prev: string)
    ensures SelectPath("/group-chats" + rest, prev) == "group-chats"
    ensures !Contains(rest, "group-chats") ==> SelectPath("/chats" + rest, prev) == "chats"
  {
    var g := "/group-chats" + rest;
    assert g[1..][..11] == "group-chats";
    ContainsFrom(g, 1, "group-chats");
    var c := "/chats" + rest;
    assert c[1..][..5] == "chats";
    ContainsFrom(c, 1, "chats");
    if !Contains(rest, "group-chats") {
      NotInPrefix(rest);
    }
  }

  /** A string whose first character cannot start `p` contains `p` only
      in its tail. */
  lemma SkipFirst(s: string, p: string)
    requires |s| > 0 && |p| > 0 && s[0] != p[0]
    requires !Contains(s[1..], p)
    ensures !Contains(s, p)
  {
  }

  /** `"/chats"` followed by a string without `group-chats` does not
      contain `group-chats`: no occurrence can start in the prefix. */
  lemma NotInPrefix(rest: string)
    requires !Contains(rest, "group-chats")
    ensures !Contains("/chats" + rest, "group-chats")
  {
    var p := "group-chats";
    var c := "/chats" + rest;
    assert p[0] == 'g';
    assert c[6..] == rest;
    assert c[5..][1..] == c[6..] && c[5] == 's';
    SkipFirst(c[5..], p);
    assert c[4..][1..] == c[5..] && c[4] == 't';
    SkipFirst(c[4..], p);
    assert c[3..][1..] == c[4..] && c[3] == 'a';
    SkipFirst(c[3..], p);
    assert c[2..][1..] == c[3..] && c[2] == 'h';
    SkipFirst(c[2..], p);
    assert c[1..][1..] == c[2..] && c[1] == 'c';
    SkipFirst(c[1..], p);
    assert c[0] == '/';
    SkipFirst(c, p);
  }

  // ---------------------------------------------------------------- active card

  predicate IsDecimalDigit(c: char) {
    '0' <= c <= '9'
  }

  /** A digit in base 10 or 16. */
  predicate IsDigitIn(c: char, radix: nat) {
    IsDecimalDigit(c) || (radix == 16 && ('a' <= c <= 'f' || 'A' <= c <= 'F'))
  }

  function DigitValue(c: char): nat
    requires IsDigitIn(c, 16)
  {
    if IsDecimalDigit(c) then c as nat - '0' as nat
    else if 'a' <= c <= 'f' then c as nat - 'a' as nat + 10
    else c as nat - 'A' as nat + 10
  }

  /** The length of the longest prefix made of digits of `radix`. */
  function DigitRun(s: string, radix: nat): (n: nat)
    ensures n <= |s|
    ensures forall i :: 0 <= i < n ==> IsDigitIn(s[i], radix)
    ensures n < |s| ==> !IsDigitIn(s[n], radix)
  {
    if |s| > 0 && IsDigitIn(s[0], radix) then 1 + DigitRun(s[1..], radix) else 0
  }

  /** The number a run of digits denotes, most significant first. */
  function ValueOf(ds: string, radix: nat): nat
    requires forall i :: 0 <= i < |ds| ==> IsDigitIn(ds[i], 16)
  {
    if |ds| == 0 then 0
    else ValueOf(ds[..|ds| - 1], radix) * radix + DigitValue(ds[|ds| - 1])
  }

  /** The digits at the start of `v` in base `radix`; none is NaN. */
  function ParseDigits(v: string, radix: nat): (r: Option<nat>)
    ensures r.None? <==> |v| == 0 || !IsDigitIn(v[0], radix)
  {
    var n := DigitRun(v, radix);
    if n == 0 then None else Some(ValueOf(v[..n], radix))
  }

  predicate HasHexPrefix(u: string) {
    |u| >= 2 && u[0] == '0' && (u[1] == 'x' || u[1] == 'X')
  }

  /** The unsigned part: a `0x`/`0X` prefix switches to base 16. */
  function ParseUnsigned(u: string): (r: Option<nat>)
    ensures HasHexPrefix(u) ==> (r.Some? <==> |u| > 2 && IsDigitIn(u[2], 16))
    ensures !HasHexPrefix(u) ==> (r.Some? <==> |u| > 0 && IsDecimalDigit(u[0]))
  {
    if HasHexPrefix(u) then ParseDigits(u[2..], 16) else ParseDigits(u, 10)
  }

  function Negate(v: Option<nat>): (r: Option<int>)
    ensures r.Some? <==> v.Some?
    ensures r.Some? ==> r.value == -(v.value as int)
  {
    if v.None? then None else Some(-(v.value as int))
  }

  function AsInt(v: Option<nat>): (r: Option<int>)
    ensures r.Some? <==> v.Some?
    ensures r.Some? ==> r.value == v.value as int
  {
    if v.None? then None else Some(v.value)
  }

  /** The text after leading whitespace and an optional sign. */
  function Unsigned(s: string): string {
    var t := TrimStart(s);
    if |t| > 0 && (t[0] == '-' || t[0] == '+') then t[1..] else t
  }

  /** `parseInt(s)` with no radix: leading whitespace is skipped, then an
      optional sign, then the unsigned part. NaN is written `None`: it is
      the result exactly when no digit follows the sign and the optional
      `0x` prefix. A minus sign negates; otherwise the result is the
      non-negative value of the digits. */
  function ParseInt(s: string): (r: Option<int>)
    ensures var u := Unsigned(s);
      HasHexPrefix(u) ==> (r.Some? <==> |u| > 2 && IsDigitIn(u[2], 16))
    ensures var u := Unsigned(s);
      !HasHexPrefix(u) ==> (r.Some? <==> |u| > 0 && IsDecimalDigit(u[0]))
    ensures |TrimStart(s)| == 0 ==> r.None?
    ensures r.Some? && r.value < 0 ==> TrimStart(s)[0] == '-'
    ensures r.Some? && (TrimStart(s)[0] != '-') ==> r == AsInt(ParseUnsigned(Unsigned(s)))
    ensures r.Some? && TrimStart(s)[0] == '-' ==> r == Negate(ParseUnsigned(Unsigned(s)))
  {
    var t := TrimStart(s);
    var v := ParseUnsigned(Unsigned(s));
    if |t| > 0 && t[0] == '-' then Negate(v) else AsInt(v)
  }

  /** Leading whitespace never changes what a route id parses to. */
  lemma {:induction false} ParseSkipsWhitespace(pad: string, s: string)
    requires forall i :: 0 <= i < |pad| ==> IsWhitespace(pad[i])
    ensures ParseInt(pad + s) == ParseInt(s)
  {
    TrimStartAfterPadding(pad, s);
  }

  lemma {:induction false} TrimStartAfterPadding(pad: string, s: string)
    requires forall i :: 0 <= i < |pad| ==> IsWhitespace(pad[i])
    ensures TrimStart(pad + s) == TrimStart(s)
    decreases |pad|
  {
    if |pad| > 0 {
      assert (pad + s)[1..] == pad[1..] + s;
      TrimStartAfterPadding(pad[1..], s);
    } else {
      assert pad + s == s;
    }
  }

  function DigitChar(d: nat): (c: char)
    requires d < 10
    ensures IsDecimalDigit(c) && DigitValue(c) == d
  {
    ('0' as nat + d) as char
  }

  /** The decimal numeral of a natural number, without leading zeros. */
  function Digits(n: nat): (ds: string)
    ensures |ds| >= 1
    ensures forall i :: 0 <= i < |ds| ==> IsDecimalDigit(ds[i])
    ensures n > 0 ==> ds[0] != '0'
    ensures n == 0 ==> ds == "0"
  {
    if n < 10 then [DigitChar(n)] else Digits(n / 10) + [DigitChar(n % 10)]
  }

  /** `String(n)` for an integer. */
  function Decimal(n: int): string {
    if n < 0 then "-" + Digits(-n) else Digits(n)
  }

  /** A numeral denotes the number it was written for. */
  lemma {:induction false} DigitsValue(n: nat)
    ensures ValueOf(Digits(n), 10) == n
  {
    if n >= 10 {
      var ds := Digits(n);
      assert ds[..|ds| - 1] == Digits(n / 10);
      DigitsValue(n / 10);
    }
  }

  /** The digit run of a numeral followed by a non-digit is the numeral. */
  lemma {:induction false} DigitRunOfNumeral(ds: string, rest: string, radix: nat)
    requires forall i :: 0 <= i < |ds| ==> IsDigitIn(ds[i], radix)
    requires rest == "" || !IsDigitIn(rest[0], radix)
    ensures DigitRun(ds + rest, radix) == |ds|
  {
    if |ds| > 0 {
      assert (ds + rest)[1..] == ds[1..] + rest;
      DigitRunOfNumeral(ds[1..], rest, radix);
    } else {
      assert ds + rest == rest;
    }
  }

  /** A numeral followed by anything that does not continue it parses, as
      the unsigned part, to the number it was written for. */
  lemma ParseNumeral(m: nat, rest: string)
    requires rest == "" || (!IsDecimalDigit(rest[0]) && rest[0] != 'x' && rest[0] != 'X')
    ensures ParseUnsigned(Digits(m) + rest) == Some(m)
  {
    var ds := Digits(m);
    var u := ds + rest;
    assert !HasHexPrefix(u) by {
      if |ds| == 1 && |u| >= 2 {
        assert u[1] == rest[0];
      } else if |u| >= 2 {
        assert u[1] == ds[1];
      }
    }
    DigitRunOfNumeral(ds, rest, 10);
    assert u[..|ds|] == ds;
    DigitsValue(m);
  }

  /** A string that starts with a digit parses as its unsigned part. */
  lemma ParseStartingDigit(u: string)
    requires |u| > 0 && IsDecimalDigit(u[0])
    ensures ParseInt(u) == AsInt(ParseUnsigned(u))
  {
    TrimStartPadded("", u);
    assert "" + u == u;
  }

  /** A minus sign in front of a digit negates the unsigned part. */
  lemma ParseMinus(u: string)
    requires |u| > 0 && IsDecimalDigit(u[0])
    ensures ParseInt("-" + u) == Negate(ParseUnsigned(u))
  {
    var s := "-" + u;
    TrimStartPadded("", s);
    assert "" + s == s && s[1..] == u;
  }

  /** The route id written for chat `n`, followed by anything that does not
      continue the numeral, parses back to `n`. */
  lemma ParseDecimal(n: int, rest: string)
    requires rest == "" || (!IsDecimalDigit(rest[0]) && rest[0] != 'x' && rest[0] != 'X')
    ensures ParseInt(Decimal(n) + rest) == Some(n)
  {
    if n < 0 {
      ParseNegative(-n, rest);
      assert Decimal(n) == "-" + Digits(-n);
    } else {
      ParseNumeralRoute(n, rest);
    }
  }

  /** A numeral and a non-continuing tail parse back to its number. */
  lemma ParseNumeralRoute(m: nat, rest: string)
    requires rest == "" || (!IsDecimalDigit(rest[0]) && rest[0] != 'x' && rest[0] != 'X')
    ensures ParseInt(Digits(m) + rest) == Some(m)
  {
    var u := Digits(m) + rest;
    assert |u| > 0 && IsDecimalDigit(u[0]);
    assert ParseUnsigned(u) == Some(m) by {
      ParseNumeral(m, rest);
    }
    ParseStartingDigit(u);
  }

  /** A minus sign, a numeral of a positive number and a non-continuing
      tail parse back to the negated number. */
  lemma ParseNegative(m: nat, rest: string)
    requires rest == "" || (!IsDecimalDigit(rest[0]) && rest[0] != 'x' && rest[0] != 'X')
    ensures ParseInt("-" + Digits(m) + rest) == Some(-(m as int))
  {
    var u := Digits(m) + rest;
    assert "-" + Digits(m) + rest == "-" + u;
    assert |u| > 0 && IsDecimalDigit(u[0]);
    assert ParseUnsigned(u) == Some(m) by {
      ParseNumeral(m, rest);
    }
    ParseMinus(u);
  }

  /** `isActiveChat`: the card's id equals the number parsed from the
      route id; no route id parses to NaN, which equals nothing. */
  function IsActiveChat(chatId: int, routeId: Option<string>): (active: bool)
    ensures routeId.None? ==> !active
    ensures active ==> ParseInt(routeId.value) == Some(chatId)
    ensures routeId.Some? && ParseInt(routeId.value) == Some(chatId) ==> active
  {
    routeId.Some? && ParseInt(routeId.value) == Some(chatId)
  }

  /** On the route written for chat `n`, its card and no other is active. */
  lemma ExactlyOneCardActive(n: int, m: int)
    ensures IsActiveChat(m, Some(Decimal(n))) <==> m == n
  {
    ParseDecimal(n, "");
    assert Decimal(n) + "" == Decimal(n);
  }

  /** Text after the number that starts with a non-digit is ignored: the
      route id `7-lunch` activates chat 7. */
  lemma TrailingTextIgnored(n: int, word: string)
    ensures IsActiveChat(n, Some(Decimal(n) + "-" + word))
  {
    var rest := "-" + word;
    var route := Decimal(n) + rest;
    assert Decimal(n) + "-" + word == route;
    assert ParseInt(route) == Some(n) by {
      assert rest[0] == '-';
      ParseDecimal(n, rest);
    }
  }

  /** A `0x` prefix switches the route id to base 16. */
  lemma HexRouteId()
    ensures IsActiveChat(26, Some("0x1A"))
  {
    var u := "0x1A";
    TrimStartPadded("", u);
    assert "" + u == u;
    assert HasHexPrefix(u) && u[2..] == "1A";
    assert DigitRun("1A", 16) == 2 by {
      assert "1A"[1..] == "A";
      assert DigitRun("A", 16) == 1 by { assert "A"[1..] == ""; }
    }
    assert "1A"[..2] == "1A" && "1A"[..1] == "1" && "1"[..0] == "";
    assert DigitValue('1') == 1 && DigitValue('A') == 10;
    assert ValueOf("1", 16) == 1;
    assert ValueOf("1A", 16) == 26;
    assert ParseUnsigned(u) == ParseDigits("1A", 16) == Some(26);
    assert ParseInt(u) == AsInt(ParseUnsigned(u));
  }

  /** A route id without digits is NaN and activates no card. */
  lemma WordRouteIdActivatesNothing(m: int)
    ensures !IsActiveChat(m, Some("chat"))
  {
    TrimStartPadded("", "chat");
    assert "" + "chat" == "chat";
  }
}

=== FILE: client_sidebar.dfy ===
/** The sidebar's navigation links and which of them is highlighted for
    the current pathname. */
module Sidebar {
  import opened Strings
  import opened Records
  import ChatPage

  /** `isActive(linkPath)`: the two chat sections are active for every
      pathname inside them, any link for its exact pathname. */
  function IsActiveLink(linkPath: string, pathname: string): (active: bool)
    ensures linkPath == "/group-chats" ==> (active <==> StartsWith(pathname, "/group-chats"))
    ensures linkPath == "/chats" ==> (active <==> StartsWith(pathname, "/chats"))
    ensures linkPath == pathname ==> active
    ensures linkPath != "/chats" && linkPath != "/group-chats" ==> (active <==> linkPath == pathname)
  {
    if linkPath == "/group-chats" && StartsWith(pathname, "/group-chats") then true
    else if linkPath == "/chats" && StartsWith(pathname, "/chats") then true
    else linkPath == pathname
  }

  /** The links the sidebar renders. */
  const Links: seq<string> := ["/chats", "/group-chats", "/settings"]

  /** At most one sidebar link is highlighted, whatever the pathname. */
  lemma AtMostOneActive(pathname: string, i: nat, j: nat)
    requires i < j < |Links|
    ensures !(IsActiveLink(Links[i], pathname) && IsActiveLink(Links[j], pathname))
  {
    ChatPage.SectionsAreDisjoint(pathname);
    if pathname == "/settings" {
      assert "/settings"[1] == 's';
      assert "/chats"[1] == 'c' && "/group-chats"[1] == 'g';
      assert !StartsWith(pathname, "/chats");
    }
  }

  /** Pages inside a group chat do not highlight the direct chats link. */
  lemma GroupChatsAreNotChats(rest: string)
    ensures IsActiveLink("/group-chats", "/group-chats" + rest)
    ensures !IsActiveLink("/chats", "/group-chats" + rest)
  {
    var p := "/group-chats" + rest;
    assert p[..|"/group-chats"|] == "/group-chats";
    ChatPage.SectionsAreDisjoint(p);
  }

  /** The back button leads to the section whose link is highlighted while
      the chat is open. */
  lemma BackLandsOnActiveSection(id: Option<string>, pathname: string)
    requires ChatPage.OnBack(id, pathname).Some?
    ensures var to := ChatPage.OnBack(id, pathname).value;
      IsActiveLink(to, pathname) && IsActiveLink(to, to)
  {
  }
}

=== FILE: gateway.dfy ===
/** The realtime handlers of the server's socket connection (`setup`,
    `join chat`, `new message`, `typing`, `stop typing`): which rooms a
    socket is in, and which emissions each incoming event produces. An
    emission to a room goes to every socket in it except the one that
    raised the event (`socket.in(room)`). Delivery, connection lifetime and
    disconnect belong to the transport and are not modelled. */
module Gateway {
  import opened Seqs
  import opened Records

  type Socket = nat
  /** A room name: a user id (personal room) or whatever a client joins. */
  type Room = string
  type Rooms = map<Room, set<Socket>>

  /** The part of a `new message` payload the fan-out reads: the sender's id
      and the chat's member ids, when the chat object carries them. */
  datatype Payload = Payload(sender: UserId, chatUsers: Option<seq<UserId>>)

  datatype Event = Connected | MessageReceived(message: Payload) | TypingStarted | TypingStopped

  datatype Emit =
    | ToSocket(socket: Socket, event: Event)
    | ToRoom(room: Room, except: Socket, event: Event)

  /** An event a client raises on its socket. */
  datatype Incoming =
    | Setup(userId: UserId)
    | JoinChat(room: Room)
    | NewMessage(message: Payload)
    | Typing(room: Room)
    | StopTyping(room: Room)

  function Members(rooms: Rooms, room: Room): set<Socket> {
    if room in rooms then rooms[room] else {}
  }

  /** `socket.join(room)`. */
  function Join(rooms: Rooms, socket: Socket, room: Room): (r: Rooms)
    ensures Members(r, room) == Members(rooms, room) + {socket}
    ensures forall other :: other != room ==> Members(r, other) == Members(rooms, other)
  {
    rooms[room := Members(rooms, room) + {socket}]
  }

  /** The sockets an emission reaches. */
  function Receivers(rooms: Rooms, e: Emit): set<Socket> {
    match e
    case ToSocket(s, _) => {s}
    case ToRoom(room, except, _) => Members(rooms, room) - {except}
  }

  /** The `forEach` of `new message`: one emission per listed user whose id
      differs from the sender's, in list order. */
  function FanOut(users: seq<UserId>, socket: Socket, p: Payload): (es: seq<Emit>)
    ensures forall k :: 0 <= k < |es| ==> es[k].ToRoom? && es[k].except == socket && es[k].event == MessageReceived(p)
    ensures forall k :: 0 <= k < |es| ==> es[k].room != p.sender
  {
    if |users| == 0 then []
    else
      var rest := FanOut(users[1..], socket, p);
      if users[0] == p.sender then rest
      else [ToRoom(users[0], socket, MessageReceived(p))] + rest
  }

  /** The rooms the fan-out targets, in order. */
  function Targets(es: seq<Emit>): seq<Room>
    requires forall k :: 0 <= k < |es| ==> es[k].ToRoom?
  {
    if |es| == 0 then [] else [es[0].room] + Targets(es[1..])
  }

  /** The fan-out addresses exactly the member list with every entry equal
      to the sender dropped: each other entry once, in list order. */
  lemma {:induction false} FanOutTargetsOthers(users: seq<UserId>, socket: Socket, p: Payload)
    ensures Targets(FanOut(users, socket, p)) == RemoveAll(users, p.sender)
  {
    if |users| > 0 {
      FanOutTargetsOthers(users[1..], socket, p);
    }
  }

  /** One incoming event: the new room table and the emissions. Only
      `setup` and `join chat` change rooms, each adding the socket to one
      room; `setup` answers the socket itself, every other event addresses
      rooms without the raising socket. */
  function Handle(rooms: Rooms, socket: Socket, ev: Incoming): (r: (Rooms, seq<Emit>))
    ensures forall x ::
              Members(r.0, x) == Members(rooms, x) +
                (if (ev.Setup? && x == ev.userId) || (ev.JoinChat? && x == ev.room) then {socket} else {})
    ensures ev.Setup? ==> |r.1| == 1 && Receivers(rooms, r.1[0]) == {socket} && r.1[0].event == Connected
    ensures !ev.Setup? ==> forall k :: 0 <= k < |r.1| ==> r.1[k].ToRoom? && r.1[k].except == socket
    ensures ev.JoinChat? ==> r.1 == []
    ensures ev.NewMessage? ==> forall k :: 0 <= k < |r.1| ==> r.1[k].event == MessageReceived(ev.message)
    ensures ev.NewMessage? && ev.message.chatUsers.None? ==> r.1 == []
    ensures ev.NewMessage? && ev.message.chatUsers.Some? ==>
      (forall k :: 0 <= k < |r.1| ==> r.1[k].ToRoom?) &&
      Targets(r.1) == RemoveAll(ev.message.chatUsers.value, ev.message.sender)
    ensures ev.Typing? || ev.StopTyping? ==>
      |r.1| == 1 && r.1[0].ToRoom? && r.1[0].room == ev.room &&
      r.1[0].event == (if ev.Typing? then TypingStarted else TypingStopped)
  {
    match ev
    case Setup(u) => (Join(rooms, socket, u), [ToSocket(socket, Connected)])
    case JoinChat(room) => (Join(rooms, socket, room), [])
    case NewMessage(p) =>
      if p.chatUsers.None? then (rooms, [])
      else
        FanOutTargetsOthers(p.chatUsers.value, socket, p);
        (rooms, FanOut(p.chatUsers.value, socket, p))
    case Typing(room) => (rooms, [ToRoom(room, socket, TypingStarted)])
    case StopTyping(room) => (rooms, [ToRoom(room, socket, TypingStopped)])
  }

  /** No event echoes a message or a typing signal back to the socket that
      raised it, and no message is addressed to the sender's own room. */
  lemma NoEcho(rooms: Rooms, socket: Socket, ev: Incoming)
    requires !ev.Setup?
    ensures var es := Handle(rooms, socket, ev).1;
      forall k :: 0 <= k < |es| ==> socket !in Receivers(rooms, es[k])
    ensures ev.NewMessage? ==> var es := Handle(rooms, socket, ev).1;
      forall k :: 0 <= k < |es| ==> es[k].room != ev.message.sender
  {
  }

  /** A typing signal reaches the other sockets of the named room and no
      socket outside it. */
  lemma TypingReachesRoomOnly(rooms: Rooms, socket: Socket, room: Room, stop: bool)
    ensures var es := Handle(rooms, socket, if stop then StopTyping(room) else Typing(room)).1;
      |es| == 1 && Receivers(rooms, es[0]) == Members(rooms, room) - {socket}
  {
  }

  /** A socket set up for user `u` receives a message that another socket
      announces for a chat listing `u`, unless `u` sent it. */
  lemma SetupThenReceive(rooms: Rooms, s: Socket, u: UserId, other: Socket, p: Payload)
    requires s != other
    requires p.chatUsers.Some? && u in p.chatUsers.value && u != p.sender
    ensures var joined := Handle(rooms, s, Setup(u)).0;
      var es := Handle(joined, other, NewMessage(p)).1;
      exists k :: 0 <= k < |es| && s in Receivers(joined, es[k]) && es[k].event == MessageReceived(p)
  {
    var joined := Handle(rooms, s, Setup(u)).0;
    var es := FanOut(p.chatUsers.value, other, p);
    FanOutTargetsOthers(p.chatUsers.value, other, p);
    var k := TargetIndex(es, u);
    assert s in Receivers(joined, es[k]);
  }

  /** Where a target room appears in a run of room emissions. */
  function TargetIndex(es: seq<Emit>, room: Room): (k: nat)
    requires forall k :: 0 <= k < |es| ==> es[k].ToRoom?
    requires room in Targets(es)
    ensures k < |es| && es[k].room == room
  {
    if es[0].room == room then 0 else 1 + TargetIndex(es[1..], room)
  }

  /** The room table after a run of events, each raised on its socket. */
  function RunEvents(rooms: Rooms, evs: seq<(Socket, Incoming)>): Rooms
    decreases |evs|
  {
    if |evs| == 0 then rooms
    else RunEvents(Handle(rooms, evs[0].0, evs[0].1).0, evs[1..])
  }

  /** Membership only grows: no handled event takes a socket out of a room. */
  lemma {:induction false} RunOnlyJoins(rooms: Rooms, evs: seq<(Socket, Incoming)>, room: Room)
    ensures Members(rooms, room) <= Members(RunEvents(rooms, evs), room)
    decreases |evs|
  {
    if |evs| > 0 {
      var next := Handle(rooms, evs[0].0, evs[0].1).0;
      assert Members(rooms, room) <= Members(next, room);
      RunOnlyJoins(next, evs[1..], room);
    }
  }
}

=== FILE: message_service.dfy ===
/** The message handlers of the server (`sendMessage`,
    `sendAttachmentMessage`, `getMessages`). A send validates its input,
    appends one message and then points the chat's `latestMessage` at it.
    Neither send checks that the chat exists or that the sender belongs to
    it; updating a chat id that names no chat updates nothing. */
module MessageService {
  import opened Strings
  import opened Records

  const InvalidData := HttpError("Invalid data passed into request", Some(400))
  const UploadFailed := HttpError("File upload failed", Some(500))

  /** The file part of a multipart request. */
  datatype Upload = Upload(name: string, mimetype: string)

  /** The chat after `latestMessage` was pointed at message `m` at `now`. */
  predicate IsLatestUpdate(c: Chat, c': Chat, m: MessageId, now: Time) {
    c' == c.(latestMessage := Some(m), updatedAt := now)
  }

  /** The shared tail of both sends: `Message.create` followed by
      `Chat.findByIdAndUpdate(chatId, {latestMessage})`. */
  function Post(s: Store, sender: UserId, content: Content, chatId: ChatId, now: Time): (r: Outcome<MessageId>)
    ensures r.Done? && r.value == |s.messages|
    ensures r.store.messages == s.messages + [NewMessage(sender, content, chatId, now)]
    ensures |r.store.chats| == |s.chats|
    ensures forall j :: 0 <= j < |s.chats| && j != chatId ==> r.store.chats[j] == s.chats[j]
    ensures chatId < |s.chats| ==> IsLatestUpdate(s.chats[chatId], r.store.chats[chatId], r.value, now)
  {
    var m := NewMessage(sender, content, chatId, now);
    var chats := if chatId < |s.chats|
      then s.chats[chatId := s.chats[chatId].(latestMessage := Some(|s.messages|), updatedAt := now)]
      else s.chats;
    Done(Store(chats, s.messages + [m]), |s.messages|)
  }

  /** `sendMessage`: a missing or empty `content`, or a missing `chatId`, is
      refused before anything is written. Otherwise the requester's text
      is stored, trimmed, and becomes the chat's latest message. */
  function SendMessage(s: Store, requester: UserId, content: Option<string>,
                       chatId: Option<ChatId>, now: Time): (r: Outcome<MessageId>)
    ensures r.Failed? <==> Falsy(content) || chatId.None?
    ensures r.Failed? ==> r.error == InvalidData
    ensures r.Done? ==>
      && r.value == |s.messages|
      && |r.store.messages| == |s.messages| + 1
      && r.store.messages[..|s.messages|] == s.messages
    ensures r.Done? ==> var m := r.store.messages[r.value];
      && m.sender == requester
      && m.content == Text(Trim(content.value))
      && m.chat == chatId.value
    ensures r.Done? ==> |r.store.chats| == |s.chats|
    ensures r.Done? && chatId.value < |s.chats| ==>
      IsLatestUpdate(s.chats[chatId.value], r.store.chats[chatId.value], r.value, now)
    ensures r.Done? ==>
      forall j :: 0 <= j < |s.chats| && j != chatId.value ==> r.store.chats[j] == s.chats[j]
  {
    if Falsy(content) || chatId.None? then Failed(InvalidData)
    else
      var r := Post(s, requester, Text(content.value), chatId.value, now);
      assert r.store.messages[..|s.messages|] == s.messages;
      r
  }

  /** `mimetype.split('/')[0]`: the media type before the first slash. */
  function AttachmentKind(mimetype: string): (kind: string)
    ensures '/' !in kind
  {
    Split(mimetype, '/')[0]
  }

  /** The kind is the longest slash-free prefix of the mimetype; a
      mimetype with no slash is its own kind. */
  lemma AttachmentKindIsPrefix(mimetype: string)
    ensures var kind := AttachmentKind(mimetype);
      && kind == mimetype[..IndexOf(mimetype, '/')]
      && ('/' in mimetype ==> mimetype[|kind|] == '/')
      && ('/' !in mimetype ==> kind == mimetype)
  {
    SplitFirst(mimetype, '/');
  }

  /** The tagged record an attachment message stores. */
  function AttachmentContent(file: Upload): (c: Content)
    ensures c.Attachment? && c.kind == AttachmentKind(file.mimetype)
    ensures StartsWith(c.path, "/uploads/") && c.path[|"/uploads/"|..] == file.name
  {
    Attachment(AttachmentKind(file.mimetype), "/uploads/" + file.name)
  }

  /** `sendAttachmentMessage`: a missing `chatId` or file is refused; a
      failed move of the file to the upload directory (`moved` false) is a
      server error; in both cases nothing is written. */
  function SendAttachmentMessage(s: Store, requester: UserId, chatId: Option<ChatId>,
                                 file: Option<Upload>, moved: bool, now: Time): (r: Outcome<MessageId>)
    ensures chatId.None? || file.None? ==> r == Failed(InvalidData)
    ensures chatId.Some? && file.Some? && !moved ==> r == Failed(UploadFailed)
    ensures r.Done? <==> chatId.Some? && file.Some? && moved
    ensures r.Done? ==>
      && r.value == |s.messages|
      && |r.store.messages| == |s.messages| + 1
      && r.store.messages[..|s.messages|] == s.messages
    ensures r.Done? ==> var m := r.store.messages[r.value];
      && m.sender == requester
      && m.chat == chatId.value
      && m.content == Attachment(AttachmentKind(file.value.mimetype), "/uploads/" + file.value.name)
    ensures r.Done? ==> |r.store.chats| == |s.chats|
    ensures r.Done? && chatId.value < |s.chats| ==>
      IsLatestUpdate(s.chats[chatId.value], r.store.chats[chatId.value], r.value, now)
    ensures r.Done? ==>
      forall j :: 0 <= j < |s.chats| && j != chatId.value ==> r.store.chats[j] == s.chats[j]
  {
    if chatId.None? || file.None? then Failed(InvalidData)
    else if !moved then Failed(UploadFailed)
    else
      var r := Post(s, requester, AttachmentContent(file.value), chatId.value, now);
      assert r.store.messages[..|s.messages|] == s.messages;
      r
  }

  /** Ids of the messages from position `from` on that belong to `chatId`. */
  function MessagesOf(msgs: seq<Message>, chatId: ChatId, from: nat): (r: seq<MessageId>)
    requires from <= |msgs|
    ensures forall k: MessageId :: k in r <==> from <= k < |msgs| && msgs[k].chat == chatId
    ensures forall i, j :: 0 <= i < j < |r| ==> r[i] < r[j]
    decreases |msgs| - from
  {
    if from == |msgs| then []
    else
      var rest := MessagesOf(msgs, chatId, from + 1);
      assert forall j :: 0 <= j < |rest| ==> rest[j] in rest;
      if msgs[from].chat == chatId then [from] + rest else rest
  }

  /** `getMessages`: exactly the messages of the chat, in store order. */
  function GetMessages(s: Store, chatId: ChatId): (r: seq<MessageId>)
    ensures forall k: MessageId :: k in r <==> k < |s.messages| && s.messages[k].chat == chatId
    ensures forall i, j :: 0 <= i < j < |r| ==> r[i] < r[j]
  {
    MessagesOf(s.messages, chatId, 0)
  }

  /** Listing after one more message: the new message comes last, and only
      in its own chat. */
  lemma {:induction false} MessagesOfAppend(msgs: seq<Message>, m: Message, chatId: ChatId, from: nat)
    requires from <= |msgs|
    ensures MessagesOf(msgs + [m], chatId, from) ==
      MessagesOf(msgs, chatId, from) + (if m.chat == chatId then [|msgs|] else [])
    decreases |msgs| - from
  {
    var all := msgs + [m];
    if from == |msgs| {
      assert MessagesOf(all, chatId, from + 1) == [];
    } else {
      MessagesOfAppend(msgs, m, chatId, from + 1);
      assert all[from] == msgs[from];
    }
  }

  /** After a successful send, listing the chat gives what it gave before
      followed by the new message; every other chat's listing is unchanged. */
  lemma SentMessageIsListedLast(s: Store, requester: UserId, content: Option<string>,
                                chatId: Option<ChatId>, now: Time, other: ChatId)
    requires SendMessage(s, requester, content, chatId, now).Done?
    ensures var r := SendMessage(s, requester, content, chatId, now);
      && GetMessages(r.store, chatId.value) == GetMessages(s, chatId.value) + [r.value]
      && (other != chatId.value ==> GetMessages(r.store, other) == GetMessages(s, other))
  {
    var m := NewMessage(requester, Text(content.value), chatId.value, now);
    MessagesOfAppend(s.messages, m, chatId.value, 0);
    MessagesOfAppend(s.messages, m, other, 0);
  }

  /** Validation looks at the raw text, the schema trims afterwards: a text
      of blanks passes and is stored empty. */
  lemma BlankTextIsStoredEmpty(s: Store, requester: UserId, blanks: string, chatId: ChatId, now: Time)
    requires blanks != [] && forall i :: 0 <= i < |blanks| ==> IsWhitespace(blanks[i])
    ensures var r := SendMessage(s, requester, Some(blanks), Some(chatId), now);
      r.Done? && r.store.messages[r.value].content == Text("")
  {
    assert Trim(blanks) == "" by {
      TrimPadding(blanks, "", "");
      assert blanks + "" + "" == blanks;
    }
  }

  /** A send to an id that names no chat still stores the message and
      leaves every chat as it was. */
  lemma SendToUnknownChat(s: Store, requester: UserId, text: string, chatId: ChatId, now: Time)
    requires text != "" && chatId >= |s.chats|
    ensures var r := SendMessage(s, requester, Some(text), Some(chatId), now);
      r.Done? && r.store.chats == s.chats && r.store.messages[r.value].chat == chatId
  {
  }
}

=== FILE: records.dfy ===
/** The persisted records of the chat server (the Mongoose `Chat` and
    `Message` schemas) and the abstract store the controllers work on. */
module Records {
  import opened Strings

  /** A user reference as the controllers compare it: by its id string. */
  type UserId = string
  /** Position of a chat in the store's natural (insertion) order. */
  type ChatId = nat
  /** Position of a message in the store's natural (insertion) order. */
  type MessageId = nat
  /** A point of the server clock, as `createdAt` / `updatedAt` record it. */
  type Time = nat

  datatype Option<T> = None | Some(value: T)

  /** A chat document. `users` and `groupAdmins` are plain ordered lists:
      the schema allows repeats. `latestMessage` and `mainAdmin` are single
      optional references. */
  datatype Chat = Chat(
    chatName: string,
    isGroupChat: bool,
    users: seq<UserId>,
    latestMessage: Option<MessageId>,
    mainAdmin: Option<UserId>,
    groupAdmins: seq<UserId>,
    createdAt: Time,
    updatedAt: Time)

  /** What a message carries: raw text, or the tagged `{type, path}` record
      an attachment upload stores. */
  datatype Content = Text(text: string) | Attachment(kind: string, path: string)

  datatype Message = Message(
    sender: UserId,
    content: Content,
    chat: ChatId,
    createdAt: Time,
    updatedAt: Time)

  datatype Store = Store(chats: seq<Chat>, messages: seq<Message>)

  /** The error a handler passes to `next`. `Exception` is the case where
      the handler wraps a caught exception object instead of a message. */
  datatype HttpError =
    | HttpError(message: string, code: Option<nat>)
    | Exception(status: nat)

  /** The reply of a store operation. A failure carries no store: a failed
      handler writes nothing. */
  datatype Outcome<T> = Done(store: Store, value: T) | Failed(error: HttpError)

  /** `!x` on an optional request-body string: absent or empty. */
  predicate Falsy(x: Option<string>) {
    x.None? || x.value == ""
  }

  /** A stored string field as the schema's `trim: true` setter leaves it. */
  predicate StoredContent(c: Content) {
    c.Text? ==> Trimmed(c.text)
  }

  /** `Chat.create(...)` with the schema's setters and defaults applied:
      the name is trimmed, `isGroupChat` defaults to false, the admin list
      starts empty, there is no latest message, both timestamps are `now`. */
  function NewChat(name: string, isGroup: Option<bool>, users: seq<UserId>,
                   mainAdmin: Option<UserId>, now: Time): (c: Chat)
    ensures Trimmed(c.chatName)
    ensures isGroup.None? ==> !c.isGroupChat
    ensures c.isGroupChat <==> isGroup == Some(true)
    ensures c.users == users && c.mainAdmin == mainAdmin
    ensures c.groupAdmins == [] && c.latestMessage.None?
    ensures c.createdAt == now && c.updatedAt == now
  {
    Chat(Trim(name), isGroup == Some(true), users, None, mainAdmin, [], now, now)
  }

  /** `Message.create(...)`: a text content is trimmed by the schema;
      both timestamps are `now`. */
  function NewMessage(sender: UserId, content: Content, chat: ChatId, now: Time): (m: Message)
    ensures StoredContent(m.content)
    ensures m.content.Attachment? ==> m.content == content
    ensures content.Text? ==> m.content == Text(Trim(content.text))
    ensures m.sender == sender && m.chat == chat
    ensures m.createdAt == now && m.updatedAt == now
  {
    var stored := match content
      case Text(t) => Text(Trim(t))
      case Attachment(_, _) => content;
    Message(sender, stored, chat, now, now)
  }

  /** A store in which only the chat at `id` may differ from `s`. */
  predicate OnlyChatChanged(s: Store, s': Store, id: ChatId) {
    && |s'.chats| == |s.chats|
    && s'.messages == s.messages
    && forall j :: 0 <= j < |s.chats| && j != id ==> s'.chats[j] == s.chats[j]
  }
}

=== FILE: seqs.dfy ===
/** List operations shared by the server and the client: MongoDB's `$pull`,
    the client's `filter(u => u._id !== id)`, and the fan-out's
    "everyone but the sender" all drop every occurrence of one value. */
module Seqs {

  /** `xs` without any occurrence of `x`, other elements kept in order. */
  function RemoveAll<T(==,!new)>(xs: seq<T>, x: T): (r: seq<T>)
    ensures x !in r
    ensures |r| <= |xs|
    ensures forall y :: y in r <==> y in xs && y != x
    ensures forall y :: y != x ==> multiset(r)[y] == multiset(xs)[y]
    ensures x !in xs ==> r == xs
  {
    if |xs| == 0 then []
    else
      var rest := RemoveAll(xs[1..], x);
      assert xs == [xs[0]] + xs[1..];
      if xs[0] == x then rest else [xs[0]] + rest
  }

  /** Removing distributes over concatenation, so relative order survives. */
  lemma {:induction false} RemoveAllAppend<T(!new)>(a: seq<T>, b: seq<T>, x: T)
    ensures RemoveAll(a + b, x) == RemoveAll(a, x) + RemoveAll(b, x)
  {
    if |a| == 0 {
      assert a + b == b;
    } else {
      assert (a + b)[1..] == a[1..] + b;
      RemoveAllAppend(a[1..], b, x);
    }
  }

  /** Appending a fresh value and removing it again is the identity: the
      round trip behind push-then-pull. */
  lemma PushThenRemove<T(!new)>(xs: seq<T>, x: T)
    requires x !in xs
    ensures RemoveAll(xs + [x], x) == xs
  {
    RemoveAllAppend(xs, [x], x);
  }
}

=== FILE: strings.dfy ===
/** JavaScript string primitives the chat code relies on: `trim`, `split`,
    `join`, `includes`, `startsWith`, `indexOf`/`lastIndexOf` and ASCII case
    mapping. Strings are sequences of Unicode scalar values. */
module Strings {

  /** ECMAScript WhiteSpace and LineTerminator code points: the set that
      `String.prototype.trim` removes and `parseInt` skips. */
  predicate IsWhitespace(c: char) {
    || c == '\t' || c == '\n' || c == '\U{000B}' || c == '\U{000C}' || c == '\r'
    || c == ' ' || c == '\U{00A0}' || c == '\U{1680}'
    || ('\U{2000}' <= c <= '\U{200A}')
    || c == '\U{2028}' || c == '\U{2029}' || c == '\U{202F}' || c == '\U{205F}'
    || c == '\U{3000}' || c == '\U{FEFF}'
  }

  /** A string that `trim` leaves alone: no whitespace at either end. */
  predicate Trimmed(s: string) {
    |s| == 0 || (!IsWhitespace(s[0]) && !IsWhitespace(s[|s| - 1]))
  }

  function TrimStart(s: string): (r: string)
    ensures |r| <= |s| && r == s[|s| - |r|..]
    ensures |r| == 0 || !IsWhitespace(r[0])
    ensures forall i :: 0 <= i < |s| - |r| ==> IsWhitespace(s[i])
  {
    if |s| > 0 && IsWhitespace(s[0]) then TrimStart(s[1..]) else s
  }

  function TrimEnd(s: string): (r: string)
    ensures |r| <= |s| && r == s[..|r|]
    ensures |r| == 0 || !IsWhitespace(r[|r| - 1])
    ensures forall i :: |r| <= i < |s| ==> IsWhitespace(s[i])
  {
    if |s| > 0 && IsWhitespace(s[|s| - 1]) then TrimEnd(s[..|s| - 1]) else s
  }

  /** `String.prototype.trim`. */
  function Trim(s: string): (r: string)
    ensures Trimmed(r)
    ensures |r| <= |s|
    ensures Trimmed(s) ==> r == s
  {
    var t := TrimStart(s);
    var r := TrimEnd(t);
    assert |r| > 0 ==> r[0] == t[0];
    r
  }

  lemma TrimIdempotent(s: string)
    ensures Trim(Trim(s)) == Trim(s)
  {
  }

  /** Whitespace in front of a string that starts visibly is all that
      `trimStart` removes. */
  lemma {:induction false} TrimStartPadded(p: string, u: string)
    requires forall i :: 0 <= i < |p| ==> IsWhitespace(p[i])
    requires |u| == 0 || !IsWhitespace(u[0])
    ensures TrimStart(p + u) == u
    decreases |p|
  {
    if |p| > 0 {
      assert (p + u)[1..] == p[1..] + u;
      TrimStartPadded(p[1..], u);
    } else {
      assert p + u == u;
    }
  }

  /** Whitespace after a string that ends visibly is all that `trimEnd`
      removes. */
  lemma {:induction false} TrimEndPadded(u: string, p: string)
    requires forall i :: 0 <= i < |p| ==> IsWhitespace(p[i])
    requires |u| == 0 || !IsWhitespace(u[|u| - 1])
    ensures TrimEnd(u + p) == u
    decreases |p|
  {
    if |p| > 0 {
      assert (u + p)[..|u + p| - 1] == u + p[..|p| - 1];
      TrimEndPadded(u, p[..|p| - 1]);
    } else {
      assert u + p == u;
    }
  }

  /** `trim` strips exactly the whitespace padding around a trimmed string. */
  lemma TrimPadding(p: string, t: string, q: string)
    requires Trimmed(t)
    requires forall i :: 0 <= i < |p| ==> IsWhitespace(p[i])
    requires forall i :: 0 <= i < |q| ==> IsWhitespace(q[i])
    ensures Trim(p + t + q) == t
  {
    if |t| == 0 {
      assert p + t + q == (p + q) + "";
      TrimStartPadded(p + q, "");
    } else {
      assert p + t + q == p + (t + q);
      TrimStartPadded(p, t + q);
      TrimEndPadded(t, q);
    }
  }

  /** ASCII `toUpperCase` of one character. */
  function Upper(c: char): char {
    if 'a' <= c <= 'z' then (c as int - 32) as char else c
  }

  /** ASCII `toLowerCase` of one character. */
  function Lower(c: char): char {
    if 'A' <= c <= 'Z' then (c as int + 32) as char else c
  }

  function LowerString(s: string): (r: string)
    ensures |r| == |s|
    ensures forall i :: 0 <= i < |s| ==> r[i] == Lower(s[i])
  {
    if |s| == 0 then "" else [Lower(s[0])] + LowerString(s[1..])
  }

  function UpperString(s: string): (r: string)
    ensures |r| == |s|
    ensures forall i :: 0 <= i < |s| ==> r[i] == Upper(s[i])
  {
    if |s| == 0 then "" else [Upper(s[0])] + UpperString(s[1..])
  }

  /** Case mapping never turns a visible character into whitespace or back. */
  lemma CaseKeepsWhitespace(c: char)
    ensures IsWhitespace(Upper(c)) <==> IsWhitespace(c)
    ensures IsWhitespace(Lower(c)) <==> IsWhitespace(c)
    ensures Upper(c) == ' ' <==> c == ' '
    ensures Lower(c) == ' ' <==> c == ' '
  {
  }

  /** Lower-casing forgets which case the input was in. */
  lemma LowerForgetsCase(c: char)
    ensures Lower(Upper(c)) == Lower(c)
    ensures Lower(Lower(c)) == Lower(c)
  {
  }

  /** Case mapping twice is case mapping once, in either order. */
  lemma UpperForgetsCase(c: char)
    ensures Upper(Upper(c)) == Upper(c)
    ensures Upper(Lower(c)) == Upper(c)
  {
  }

  /** `startsWith`. */
  predicate StartsWith(s: string, p: string) {
    |p| <= |s| && s[..|p|] == p
  }

  /** `includes`: `p` occurs somewhere in `s`. */
  predicate Contains(s: string, p: string)
    decreases |s|
  {
    StartsWith(s, p) || (|s| > 0 && Contains(s[1..], p))
  }

  /** Every string includes the empty string. */
  lemma ContainsEmpty(s: string)
    ensures Contains(s, "")
  {
    assert StartsWith(s, "");
  }

  /** A string includes nothing longer than itself. */
  lemma {:induction false} ContainsNoLonger(s: string, p: string)
    requires Contains(s, p)
    ensures |p| <= |s|
    decreases |s|
  {
    if !StartsWith(s, p) {
      ContainsNoLonger(s[1..], p);
    }
  }

  /** An occurrence at offset `k` is an occurrence. */
  lemma {:induction false} ContainsFrom(s: string, k: nat, q: string)
    requires k <= |s| && StartsWith(s[k..], q)
    ensures Contains(s, q)
    decreases k
  {
    if k > 0 {
      assert s[k..] == s[1..][k - 1..];
      ContainsFrom(s[1..], k - 1, q);
    } else {
      assert s[0..] == s;
    }
  }

  /** A string includes every part of anything it includes. */
  lemma {:induction false} ContainsInfix(s: string, p: string, a: string, q: string, b: string)
    requires p == a + q + b
    requires Contains(s, p)
    ensures Contains(s, q)
    decreases |s|
  {
    if StartsWith(s, p) {
      assert s[|a|..][..|q|] == p[|a|..|a| + |q|] == q;
      ContainsFrom(s, |a|, q);
    } else {
      ContainsInfix(s[1..], p, a, q, b);
    }
  }

  /** `indexOf(c)` with "absent" written as `|s|`. */
  function IndexOf(s: string, c: char): (k: nat)
    ensures k <= |s|
    ensures k < |s| ==> s[k] == c
    ensures forall i :: 0 <= i < k ==> s[i] != c
  {
    if |s| == 0 then 0 else if s[0] == c then 0 else 1 + IndexOf(s[1..], c)
  }

  /** `lastIndexOf(c)`, -1 when absent. */
  function LastIndexOf(s: string, c: char): (k: int)
    ensures -1 <= k < |s|
    ensures k >= 0 ==> s[k] == c
    ensures forall i :: k < i < |s| ==> s[i] != c
  {
    if |s| == 0 then -1
    else if s[|s| - 1] == c then |s| - 1
    else LastIndexOf(s[..|s| - 1], c)
  }

  /** `split(sep)` on a one-character separator: never empty, and no part
      holds the separator. */
  function Split(s: string, sep: char): (parts: seq<string>)
    ensures |parts| >= 1
    ensures forall i :: 0 <= i < |parts| ==> sep !in parts[i]
    decreases |s|
  {
    var k := IndexOf(s, sep);
    if k == |s| then [s] else [s[..k]] + Split(s[k + 1..], sep)
  }

  /** `join(sep)`. */
  function Join(parts: seq<string>, sep: char): string
  {
    if |parts| == 0 then ""
    else if |parts| == 1 then parts[0]
    else parts[0] + [sep] + Join(parts[1..], sep)
  }

  /** Joining the parts of a split gives the string back. */
  lemma {:induction false} JoinSplit(s: string, sep: char)
    ensures Join(Split(s, sep), sep) == s
    decreases |s|
  {
    var k := IndexOf(s, sep);
    if k < |s| {
      var rest := Split(s[k + 1..], sep);
      var parts := [s[..k]] + rest;
      assert Split(s, sep) == parts;
      assert parts[0] == s[..k] && parts[1..] == rest;
      JoinSplit(s[k + 1..], sep);
      assert Join(parts, sep) == s[..k] + [sep] + s[k + 1..];
      assert s == s[..k] + [sep] + s[k + 1..];
    }
  }

  /** Splitting a join of separator-free parts gives the parts back. */
  lemma {:induction false} SplitJoin(parts: seq<string>, sep: char)
    requires |parts| >= 1
    requires forall i :: 0 <= i < |parts| ==> sep !in parts[i]
    ensures Split(Join(parts, sep), sep) == parts
  {
    if |parts| > 1 {
      SplitJoin(parts[1..], sep);
      var s := Join(parts, sep);
      assert s == parts[0] + [sep] + Join(parts[1..], sep);
      IndexOfAfterFree(parts[0], sep, Join(parts[1..], sep));
      assert s[..|parts[0]|] == parts[0];
      assert s[|parts[0]| + 1..] == Join(parts[1..], sep);
    } else {
      assert IndexOf(parts[0], sep) == |parts[0]|;
    }
  }

  lemma IndexOfAfterFree(a: string, sep: char, b: string)
    requires sep !in a
    ensures IndexOf(a + [sep] + b, sep) == |a|
  {
    var s := a + [sep] + b;
    assert s[|a|] == sep;
    assert forall i :: 0 <= i < |a| ==> s[i] == a[i];
  }

  /** How many times `c` occurs in `s`. */
  function Count(s: string, c: char): nat
  {
    if |s| == 0 then 0 else (if s[0] == c then 1 else 0) + Count(s[1..], c)
  }

  lemma {:induction false} CountAppend(a: string, b: string, c: char)
    ensures Count(a + b, c) == Count(a, c) + Count(b, c)
  {
    if |a| > 0 {
      CountAppend(a[1..], b, c);
      assert (a + b)[1..] == a[1..] + b;
    } else {
      assert a + b == b;
    }
  }

  lemma {:induction false} CountAbsent(s: string, c: char)
    requires forall i :: 0 <= i < |s| ==> s[i] != c
    ensures Count(s, c) == 0
  {
    if |s| > 0 {
      CountAbsent(s[1..], c);
    }
  }

  /** A string holding `c` counts it at least once. */
  lemma {:induction false} CountPositive(s: string, c: char)
    requires c in s
    ensures Count(s, c) > 0
  {
    if s[0] != c {
      assert c in s[1..];
      CountPositive(s[1..], c);
    }
  }

  /** `split` gives a single part exactly when the separator is absent. */
  lemma SplitSingle(s: string, sep: char)
    ensures |Split(s, sep)| == 1 <==> sep !in s
  {
  }

  /** `split` yields one more part than there are separators. */
  lemma {:induction false} SplitCount(s: string, sep: char)
    ensures |Split(s, sep)| == Count(s, sep) + 1
    decreases |s|
  {
    var k := IndexOf(s, sep);
    if k == |s| {
      CountAbsent(s, sep);
    } else {
      SplitCount(s[k + 1..], sep);
      assert s == s[..k] + ([sep] + s[k + 1..]);
      CountAppend(s[..k], [sep] + s[k + 1..], sep);
      CountAppend([sep], s[k + 1..], sep);
      CountAbsent(s[..k], sep);
    }
  }

  /** The first part of a split is everything before the first separator. */
  lemma SplitFirst(s: string, sep: char)
    ensures Split(s, sep)[0] == s[..IndexOf(s, sep)]
  {
  }

  /** The last element of a non-empty sequence of parts. */
  function LastPart(parts: seq<string>): string
    requires |parts| > 0
  {
    parts[|parts| - 1]
  }

  /** The last part of a split is everything after the last separator. */
  lemma {:induction false} SplitLast(s: string, sep: char)
    ensures LastPart(Split(s, sep)) == After(s, LastIndexOf(s, sep))
    decreases |s|
  {
    var k := IndexOf(s, sep);
    if k < |s| {
      SplitLast(s[k + 1..], sep);
      SplitLastStep(s, sep, k);
    } else {
      SplitLastNone(s, sep);
    }
  }

  /** The last part of a split past its first separator is the last part of
      the whole split. */
  lemma SplitLastStep(s: string, sep: char, k: nat)
    requires k == IndexOf(s, sep) && k < |s|
    requires LastPart(Split(s[k + 1..], sep)) == After(s[k + 1..], LastIndexOf(s[k + 1..], sep))
    ensures LastPart(Split(s, sep)) == After(s, LastIndexOf(s, sep))
  {
    SplitLastCons(s, sep, k);
    LastAfterFirst(s, sep, k);
  }

  /** Dropping the first part keeps the last one. */
  lemma SplitLastCons(s: string, sep: char, k: nat)
    requires k == IndexOf(s, sep) && k < |s|
    ensures LastPart(Split(s, sep)) == LastPart(Split(s[k + 1..], sep))
  {
    SplitCons(s, sep);
    LastOfCons(s[..k], Split(s[k + 1..], sep));
  }

  /** What follows the last separator, seen from after the first one. */
  lemma LastAfterFirst(s: string, sep: char, k: nat)
    requires k == IndexOf(s, sep) && k < |s|
    ensures After(s, LastIndexOf(s, sep)) == After(s[k + 1..], LastIndexOf(s[k + 1..], sep))
  {
    LastIndexOfAfter(s, sep, k);
    SuffixShift(s, k, LastIndexOf(s[k + 1..], sep), LastIndexOf(s, sep));
  }

  /** Everything after position `i`; `i == -1` gives the whole string. */
  function After(s: string, i: int): string
    requires -1 <= i < |s|
  {
    s[i + 1..]
  }

  /** A suffix of `s` past `k`, measured from `k + 1` instead. */
  lemma SuffixShift(s: string, k: nat, j: int, last: int)
    requires k < |s| && -1 <= j < |s| - k - 1 && last == (if j >= 0 then k + 1 + j else k)
    ensures After(s, last) == After(s[k + 1..], j)
  {
  }

  /** Putting a part in front keeps the last one. */
  lemma LastOfCons(x: string, xs: seq<string>)
    requires |xs| > 0
    ensures LastPart([x] + xs) == LastPart(xs)
  {
  }

  /** A split with a separator: the part before it, then the split of
      the rest. */
  lemma SplitCons(s: string, sep: char)
    requires IndexOf(s, sep) < |s|
    ensures Split(s, sep) == [s[..IndexOf(s, sep)]] + Split(s[IndexOf(s, sep) + 1..], sep)
  {
  }

  /** Without a separator the single part is the whole string. */
  lemma SplitLastNone(s: string, sep: char)
    requires IndexOf(s, sep) == |s|
    ensures LastPart(Split(s, sep)) == After(s, LastIndexOf(s, sep))
  {
    assert Split(s, sep) == [s];
    assert LastIndexOf(s, sep) == -1 by {
      assert forall i :: 0 <= i < |s| ==> s[i] != sep;
    }
    assert s[-1 + 1..] == s;
  }

  /** The last occurrence in `s`, seen from an earlier occurrence at `k`. */
  lemma LastIndexOfAfter(s: string, c: char, k: nat)
    requires k < |s| && s[k] == c
    ensures var j := LastIndexOf(s[k + 1..], c);
      LastIndexOf(s, c) == (if j >= 0 then k + 1 + j else k)
  {
    var rest := s[k + 1..];
    var j := LastIndexOf(rest, c);
    var last := if j >= 0 then k + 1 + j else k;
    assert s[last] == c;
    forall i | last < i < |s|
      ensures s[i] != c
    {
      assert s[i] == rest[i - k - 1];
    }
    LastIndexUnique(s, c, last);
  }

  lemma LastIndexUnique(s: string, c: char, k: int)
    requires 0 <= k < |s| && s[k] == c
    requires forall i :: k < i < |s| ==> s[i] != c
    ensures LastIndexOf(s, c) == k
  {
  }
}
